=== FILE: README.md ===
# JU Points Bot: the portal client and the login conversation, in Dafny

The system is a Telegram bot. It logs a student into a university portal and reports the
grade summary it scrapes from the points page. This project models the bot's decision rules
over abstract inputs.

The portal client (`portal.py`) covers:
- URL joining;
- the CSRF token;
- the choice of the login form, the merged login payload and the post URL;
- the three-way login verdict, with its probe of the points page;
- `fetch_points`: locating the page, the badge and profile entries, the AJAX summary, the
  regex scanners, the structural fallbacks, the per-semester sweep and the empty-result rule.

The front end (`bot.py`) covers:
- the start-up configuration check and `VERIFY_SSL`;
- the `/login` → username → password → end conversation over the per-chat session table,
  and `/cancel`;
- the points message.

The modules:
- `Base`: `Option`, first-match search.
- `Text`: Python string operations on ASCII: `strip`, `lower`, `rstrip("/")`, `join`, `str(n)`.
- `Dict`: an insertion-ordered `dict[str, str]` as a sequence of pairs. Assigning to a present
  key keeps its place; a new key goes to the end.
- `Web`: HTML documents, JSON shapes, requests and replies.
- `Scan`: the three regular expressions, as explicit leftmost-match scanners.
- `Portal`: the login.
- `Points`: `fetch_points`.
- `Bot`: the front end.

The network is a function from the history of requests sent so far to the reply to the last
one, so cookies and server state are covered without being modelled. Every operation that
talks to the portal takes the requests sent so far. It returns them extended by what it sent,
together with an outcome: a value, or the failure that would be raised.

## Behaviour worth noting

- Form choice: the login form is the first form, in document order, that passes any one of
  the three tests (portal.py:87-94). The tests are not ranked against each other.
- Fallback order: the structural fallbacks (the points table, the `totalPoints` element, the
  "Points: n" text) run before the per-semester sweep (portal.py:353-376, then 378-522). They
  see only the badges, the profile and the AJAX summary. The sweep changes only keys of the
  form "<name> - <field label>": "Total Points" and ordinary table headers keep what the
  fallbacks filed, but a table header that happens to read, say, "Fall - SCR" is overwritten
  by an accepted sweep answer for the semester "Fall" (portal.py:414-428).
- AJAX overwrites: an accepted summary answer assigns every non-null field
  (portal.py:317-330), so it replaces badge values that are already present.
- JSON decoding: when `r.json()` fails, the code decodes the same text again with
  `json.loads`, which fails the same way. The model therefore has one JSON shape per reply:
  the expected `[_, {…}]` pair, or anything else.
- Post URL: a form action or a discovered link that starts with "http" but not with "http://"
  or "https://" (for example `httpdocs/login`) is used verbatim (portal.py:108, 172). It is not
  joined to the base URL. `Portal.ResolveDiffersFromUrl` states exactly when this differs from
  `_url`.

## Model

| member | source | states |
|---|---|---|
| Portal.Url | portal.py:51-55 | An absolute path (`http://` or `https://` prefix) is returned unchanged. Any other path is appended to the base URL with every trailing "/" removed. |
| Portal.UrlIgnoresTrailingSlash | portal.py:51-55 | A trailing "/" on the base URL never changes a joined URL. |
| Portal.CsrfToken | portal.py:57-67 | No token without a configured field. The first input with that name wins when its value is non-empty. Otherwise the first meta whose name mentions "csrf" wins, when its content is non-empty. Otherwise there is no token. A token is never empty. |
| Portal.TokenInputValue | portal.py:294-303 | Absent when no CSRF field is configured or no input has that name. Otherwise it is the value of the first input with that name, exactly when that value is non-empty. |
| Portal.ChooseForm | portal.py:85-94 | The chosen index is the first form in document order that passes any one test: action contains "/login"; has both credential inputs; method is "post" in any case. It is None exactly when no form passes. |
| Portal.ChosenForm | portal.py:85-94 | Some form exactly when some form of the page passes a test. The form returned is the first one, in document order, that passes: every form ahead of it fails all the tests. |
| Portal.InitialPayload | portal.py:75-80 | The payload has distinct keys. It holds the username and password under their fields, and a truthy token under the CSRF field. Where two configured fields coincide, the later assignment wins. |
| Portal.MergeInputs | portal.py:96-104 | Merging keeps the payload as a prefix, keeps keys distinct, and adds exactly the named inputs' names. A new name gets the value of its first input, defaulting to "". |
| Portal.LoginPayloadInputs | portal.py:96-104 | Each named input whose name the client did not set itself is posted with the value of the first input of that name, or "" when it has none. |
| Portal.PayloadKeepsCredentials | portal.py:75-104 | With distinct fields and a token, the form's inputs never override the credentials or the token. |
| Portal.Resolve | portal.py:106-108 | A target is either joined with `_url` or used verbatim. It is always joined when absolute, or when it does not start with "http". |
| Portal.ResolveDiffersFromUrl | portal.py:106-108 | The post-URL rule differs from `_url` exactly when the target starts with "http" but is not absolute, and the trimmed base is non-empty. |
| Portal.PostUrl | portal.py:82-108 | The login URL when there is no chosen form or its action is empty. Otherwise an action starting with "http" is used verbatim, and any other action is joined with `_url`. |
| Portal.PostLoginVerdict | portal.py:119-126 | Landed if the final URL differs from the login URL or the body says logout/dashboard. Rejected exactly when neither holds and the body says invalid/incorrect. The probe is needed exactly when the final URL is the login URL and the body has none of the four words. |
| Portal.LandedSurvivesExtraText | portal.py:119-126 | A landed verdict survives any added body text, so "dashboard" plus "invalid" still logs in. |
| Portal.JudgeAnswer | portal.py:116-134 | A transport error on the post raises a transport failure, and a 400-599 answer raises that status; nothing more is sent. An accepted post that landed or was rejected always gives a result, with nothing more sent. When the verdict needs the probe, exactly one request to the points page follows, and the login raises exactly when that request fails in transport. The client is logged in iff it landed, or the probe answered 200 without "login". A landing page is recorded only when it landed. |
| Portal.SubmitRequest | portal.py:75-116 | The login post goes to the chosen form's post URL, with the login page as referer and the base URL as origin. Its payload has distinct keys: exactly the username and password fields, the CSRF field when a token exists, and the chosen form's named inputs. With distinct fields, the username, password and token are sent unchanged. Every other named input is sent with the value of the first input of its name, or "" when that input has none. |
| Portal.Submit | portal.py:109-117 | After the login-page fetch, exactly one post is sent: the login request built from that page. At most one probe follows it. The outcome is the judgement of that post's answer. |
| Portal.Login | portal.py:69-117 | The login page is fetched first. A transport error or a 400-599 status there raises and sends nothing more. Otherwise the credentials built from that page are submitted and judged. |
| Scan.FindNum | portal.py:334-336 | The leftmost match of `\bkey\b\s*[:=]\s*"?([0-9.]+)"?`, ignoring case. It is None exactly when there is no match anywhere. Its group is a non-empty run of digits and dots. |
| Scan.FindNumReadsLeadingPair | portal.py:334-336 | A text that starts with the key (in any case), ":" or "=", an optional quote and a number yields that number. |
| Scan.SgpIgnoresSgpaPair | portal.py:334-339 | The word boundary keeps "sgp" from matching inside an "sgpa:" pair. |
| Scan.FindStatus | portal.py:341 | The leftmost match of the `semester_status` pattern, ignoring case. It is None exactly when there is no match anywhere. |
| Scan.FindStatusReadsQuoted | portal.py:341-351 | A quoted status after the key yields exactly the quoted text. |
| Scan.FindStatusBlankForEmptyQuotes | portal.py:341-351 | With empty quotes, backtracking hands the separator's space to the group. The status is then the empty string after `strip()`. |
| Scan.FindTotalPoints | portal.py:371-376 | The leftmost "Total Points:" / "Points:" label (any case) followed by digits. It is None exactly when there is none. |
| Scan.FindTotalPointsReadsLabel | portal.py:371-376 | A text that starts with such a label yields the digits after it. |
| Dict.PutAll | portal.py:192-203 | A block of conditional `result[k] = v` assignments leaves unwritten keys alone. Each written key ends with its last write. No key is lost, and only written keys are added. |
| Dict.PutAllOrder | portal.py:192-203 | After a block of assignments the old keys keep their places, and the new keys follow in the order of their first assignment, which is the order the points message lists them in. |
| Points.ChooseLink | portal.py:155-166 | The followed link is the first with a non-empty href whose href or text, lower-cased, contains a keyword. It is None exactly when no link qualifies. |
| Points.DiscoveryLinks | portal.py:145-152 | The login landing page's links are searched when its text is non-empty, with no request. Otherwise the home page is fetched: a transport error raises, an error status gives no links, and any other answer gives its links. |
| Points.Discover | portal.py:142-175 | A failure to get the links propagates. With no qualifying link, 404 is raised and nothing more is sent. Otherwise the link's resolved URL is fetched once, and that answer is checked with `raise_for_status`. |
| Points.Checked | portal.py:175 | `raise_for_status`: statuses 400 to 599 raise that status, and any other status passes. |
| Points.LocatePage | portal.py:139-175 | The configured points page is fetched first. A transport error raises. Any status but 404 is checked and used as it is. A 404 hands over to link discovery. A located page is the reply to the last request and is not an error. |
| Points.PasswordOf | portal.py:248-270 | A non-empty `pass` span wins. Otherwise the password panel's text is used when non-empty. |
| Points.PageWrites | portal.py:181-270 | The six badges, then full name, username and password, are each filed under its own key, and all nine keys differ. |
| Points.PageEntries | portal.py:192-203 | The page's entries have distinct keys. |
| Points.PageEntriesFiled | portal.py:181-270 | Each badge and profile key holds its text exactly when that text is non-empty. No other key appears. |
| Points.PageEntriesEmpty | portal.py:181-270 | The page alone yields no entry exactly when every badge and profile text is missing or empty. |
| Points.SummaryName | portal.py:276-290 | The name badge when truthy. Otherwise the first selector option's text, or "" when the selector is missing or has no option. |
| Points.FieldWrites | portal.py:317-330 | Each of SCR, SGP, SGPA, CGPA and Status is filed under the prefix plus its label, as text, whenever not null. |
| Points.ReplyWrites | portal.py:313-351 | The expected JSON pair writes the five fields under the prefix. Any other answer writes the regex findings when its body is non-empty and nothing when it is empty. Every key written is the prefix plus a field label. |
| Points.SummaryStage | portal.py:275-351 | The summary is requested exactly when any of SCR/SGP/SGPA/CGPA is missing. Its transport errors raise, and an error status changes nothing. An accepted answer is applied on top of the entries, losing no key and keeping keys distinct. |
| Points.TextFallbackFiles | portal.py:331-351 | When the answer is not the expected JSON, each field the regexes find is filed under its key, and the fields they miss keep their old value. The order of the assignments does not matter. |
| Points.SummaryOverwrites | portal.py:317-330 | Every non-null field overwrites its key. "Semester" is overwritten only by a truthy name. Fields the answer leaves null keep their old value. |
| Points.TableEntries | portal.py:353-363 | No "points" table gives nothing. Otherwise the keys are exactly the headers of the rows with a header and a cell, each holding the last cell of the last such row. Keys are distinct, and the result is non-empty exactly when such a row exists. |
| Points.Fallbacks | portal.py:353-376 | A non-empty result passes unchanged. Otherwise the table is used when it has a row; failing that, the `totalPoints` element; failing that, "Total Points" from the text pattern. The result is empty exactly when all three fail. |
| Points.OptionPlan | portal.py:396-399 | One probe per option: its value attribute or its position, and its text, or "semester_<i>" when the text is empty. The name sent is always the display. |
| Points.ProbePlan | portal.py:469-486 | 22 probes. For each value 0 to 10: first an empty name, then the badge name. Each is displayed as its name or as "semester_<v>". |
| Points.ProbePlanDistinct | portal.py:469-486 | The eleven semester values sent are pairwise different, and so are the "semester_<v>" labels of the unnamed probes. |
| Points.SemesterLabelDistinct | portal.py:486 | Different semester values give different "semester_<v>" labels. |
| Text.DecimalRoundTrip | portal.py:472 | `str(v)` of a natural number reads back as `v`. |
| Text.DecimalDistinct | portal.py:398 | Different numbers have different `str` renderings. |
| Points.ReplyKeysAreSemesterKeys | portal.py:414-449 | Every key a sweep answer can write ends with " - " and a field label. |
| Points.SweepStep | portal.py:400-452 | A transport error or an error status leaves the result unchanged. Otherwise only semester keys are added or changed: every other key keeps its value, and no key is lost. An accepted answer changes only the field keys of the label it is filed under, "<label> - SGPA" and the rest, so the keys of every other semester keep their values. |
| Points.SweepStepFiles | portal.py:414-428 | A non-null field of an accepted answer is filed under "<name> - <label>". The name is the answer's truthy semester name, or else the probe's display. |
| Points.SweepStepTextFiles | portal.py:429-450 | An accepted answer with a non-empty body that is not the JSON pair is scanned as text. Each field the scan finds is filed under "<probe's display> - <label>", and each field it misses keeps its old value. |
| Points.Sweep | portal.py:380-522 | Exactly one request per probe, in plan order, whatever the answers. The sweep never raises and never drops a key. It only adds or changes semester keys, so every other key keeps its value. |
| Points.SweepUnfold | portal.py:400-452 | The first probe's request is sent, its answer is filed, and the remaining probes continue from that result. |
| Points.SweepSnoc | portal.py:380-452 | Read as the client's loop: one more probe after a plan sends its request and files its answer on top of what the plan left. |
| Points.SweepFilesLast | portal.py:414-428 | Each non-null field of the last probe's accepted answer ends up in the result under "<semester> - <field>". |
| Points.SweepTextFilesLast | portal.py:429-450 | Read as the client's loop: a last probe answered with text files each scanned field under "<probe's display> - <label>" on top of what the earlier probes left. Fields the scan misses keep the earlier probes' values. |
| Points.SweepLastFrame | portal.py:400-450 | A last probe's accepted answer leaves every key outside its label's field keys as the earlier probes left it. |
| Points.SweepPlan | portal.py:380-453 | With a semester selector that has options: one probe per option, `OptionPlan` of the options. Otherwise, with no selector or no options: the 22 probes of `ProbePlan` named after the "current_semester_name" badge, or "" without one. |
| Points.Extract | portal.py:177-527 | A failing summary request raises that failure. Otherwise the fallbacks run on the summary's result, the sweep runs from there, and the result is the sweep's: returned when non-empty, else the "could not parse" error, which arises only when the page shows nothing and every fallback failed. A returned result has distinct keys, keeps every entry key of the page, and its non-semester keys hold what the fallbacks gave. |
| Points.FetchPoints | portal.py:137-527 | Not logged in raises before any request. Otherwise the points page is fetched first; a failure to locate the page propagates, and a located page is extracted. A returned result is never empty and keeps every entry key of the located page. |
| Bot.TrimmedNonEmpty | bot.py:25 | `rstrip("/")` leaves a non-empty base URL exactly when the base URL has a character other than "/". |
| Bot.LoadConfig | bot.py:25-38 | Start-up succeeds exactly when the base URL (trailing slashes removed) and the five other settings are non-empty. The configuration carries them unchanged. |
| Bot.VerifySsl | bot.py:31-32 | Verification is on exactly when the stripped, lower-cased setting is 1/true/yes/on. It is off when the setting is unset. |
| Bot.VerifySslNormalizes | bot.py:31-32 | Whitespace around the setting and the case of its letters never change whether verification is on. |
| Bot.VerifySslDefault | bot.py:31-32 | An unset VERIFY_SSL behaves like "false": verification is off. |
| Bot.Lines | bot.py:121 | One "key: value" line per entry, in dict order. |
| Bot.Format | bot.py:121-122 | The message is "No points found." exactly for an empty result. One entry gives "Your Points:\n" followed by "key: value". Otherwise the message starts with "Your Points:\n". |
| Bot.FormatSnoc | bot.py:121-122 | One more entry adds exactly one "\n"-separated line at the end. |
| Bot.NoPointsNeverShown | bot.py:112-122 | After a successful fetch the empty-result notice is never sent. |
| Bot.LoginCmd | bot.py:65-69 | `/login` forgets the chat's session and asks for the username. |
| Bot.Cancel | bot.py:129-132 | `/cancel` forgets the chat's session and ends. |
| Bot.AskUsernameStep | bot.py:71-79 | A blank answer asks again with the sessions unchanged. Otherwise the stripped username is stored and the password is asked for. |
| Bot.Conclude | bot.py:97-123 | A login error gets a failure report, and a rejection gets the rejection notice. A login success gets the progress notice followed by the formatted points or the fetch failure. |
| Bot.AskPasswordStep | bot.py:81-126 | No session ends the conversation, and a blank password asks again. Any other password logs in, replies, forgets the session and ends. |
| Bot.Step | bot.py:171-179 | The handler takes an event exactly when it is `/login` (from any phase, as re-entry is allowed), or `/cancel` or a text message inside a conversation. `/login` always restarts, and `/cancel` inside a conversation cancels. Text goes to the username prompt or the password prompt, by phase. |
| Bot.AskPasswordKeepsSessionsInStep | bot.py:81-126 | After the password prompt the session table agrees with the phase, and other chats are untouched. |
| Bot.StepKeepsSessionsInStep | bot.py:65-132 | Every handled event keeps "a non-blank username is stored iff the password is being asked for", and leaves other chats' sessions alone. |

## Left out

- TLS and certificate-bundle setup (portal.py:29-35), request headers, timeouts and `time.sleep`: they configure the HTTP library and decide nothing the model can observe.
- HTML parsing: pages are given as already-parsed documents: forms with their inputs, metas, anchors, elements by id, the semester selector, the "points" table and the visible text.
- Profile fields: the three-level parent walk that finds the full name, username and password panels (portal.py:205-270) is abstracted into the texts it would find. Its swallowed exceptions amount to a missing text.
- JSON decoding: only the resulting shape is modelled, as the expected pair or anything else, with each field's `str()` and truthiness given.
- Points.SummaryOverwrites: "Semester" gets the text of a truthy `semester_name`. The code stores the raw JSON value (portal.py:319-320), which differs only when that value is not a string.
- Exception messages from the HTTP library: they appear as failure kinds (transport failure, HTTP status). The bot's failure reports carry the kind, not the library's wording.
- Unicode: lower-casing, `strip()`, `\s`, and the word characters behind `\b` (`\w`) are modelled on ASCII only. Python's `re` treats `\w` as Unicode-aware, so a key right after a non-ASCII letter ("ésgpa: 3.5") matches in the model but not in the code.
- Telegram I/O: the chat-action "typing" notices, `/start`, `/help`, the unknown-command and fallback-text replies, the error handler, proxy variable removal and polling (bot.py:51-63, 93, 109, 134-192). They are replies with no state and no decision, or bootstrap code.
- The `TELEGRAM_BOT_TOKEN` check (bot.py:152-153): it happens at start-up, outside the portal configuration rule.
- Sessions: each is modelled as the stored username. The code only ever stores `{"username": name}`, so "no entry" and "entry without a username" coincide.
- Bot.StepKeepsSessionsInStep: the model keeps one conversation per chat, so it covers private chats only. The conversation handler keeps its phase per chat and per user (`per_user` is on by default), while `user_sessions` is keyed by chat alone (bot.py:67, 77, 101). In a group chat, one user's `/login` can drop or replace the username another user stored. The model does not state what happens then.

=== FILE: base.dfy ===
/** Small shared vocabulary: an optional value and "first position that satisfies a test". */
module Base {

  datatype Option<+T> = None | Some(value: T) {
    /** The value, or `default` when there is none (Python's `x or default`, `d.get(k, default)`). */
    function GetOr(default: T): T {
      match this
      case Some(v) => v
      case None => default
    }
  }

  /** Index of the first element of `s` that satisfies `p` (Python's `for x in s: if p(x): break`). */
  function FirstWhere<T>(s: seq<T>, p: T -> bool): (r: Option<nat>)
    ensures r.Some? ==> r.value < |s| && p(s[r.value])
    ensures r.Some? ==> forall j :: 0 <= j < r.value ==> !p(s[j])
    ensures r.None? <==> forall j :: 0 <= j < |s| ==> !p(s[j])
  {
    if |s| == 0 then None
    else if p(s[0]) then Some(0)
    else
      match FirstWhere(s[1..], p)
      case Some(i) => Some(i + 1)
      case None => None
  }

  /** Leftmost position `i` in `from..n` at which `at(i)` reports a hit: the search order of
      Python's `re.search`, which tries every start position from left to right. */
  function Leftmost<T>(n: nat, at: nat -> Option<T>, from: nat): (r: Option<nat>)
    decreases n + 1 - from
    ensures r.Some? ==> from <= r.value <= n && at(r.value).Some?
    ensures r.Some? ==> forall j :: from <= j < r.value ==> at(j).None?
    ensures r.None? <==> forall j :: from <= j <= n ==> at(j).None?
  {
    if from > n then None
    else if at(from).Some? then Some(from)
    else Leftmost(n, at, from + 1)
  }
}

=== FILE: bot.dfy ===
/** The Telegram front end: the start-up configuration check and the login conversation
    (`/login`, the username and password prompts, `/cancel`) around the portal client. */
module Bot {
  import opened Base
  import opened Text
  import opened Dict
  import opened Web
  import opened Portal
  import opened Points

  // ---------------------------------------------------------------------------------------
  // Configuration

  /** `os.getenv(name) or ""` */
  function EnvOr(env: map<string, string>, name: string): string {
    if name in env then env[name] else ""
  }

  /** A base URL survives `rstrip("/")` non-empty exactly when it has a character other than "/". */
  predicate HasNonSlash(s: string) {
    exists i :: 0 <= i < |s| && s[i] != '/'
  }

  lemma TrimmedNonEmpty(s: string)
    ensures TrimTrailingSlashes(s) != "" <==> HasNonSlash(s)
  {
    var t := TrimTrailingSlashes(s);
    if t != "" {
      assert s[|t| - 1] == t[|t| - 1];
    }
  }

  /** The module-level configuration: the six portal settings, the base URL without trailing
      slashes. Start-up fails (None) unless every one of them is non-empty after that. */
  function LoadConfig(env: map<string, string>): (r: Option<Config>)
    ensures r.Some? <==>
              && HasNonSlash(EnvOr(env, "PORTAL_BASE_URL"))
              && EnvOr(env, "PORTAL_LOGIN_PATH") != ""
              && EnvOr(env, "PORTAL_POINTS_PATH") != ""
              && EnvOr(env, "PORTAL_USERNAME_FIELD") != ""
              && EnvOr(env, "PORTAL_PASSWORD_FIELD") != ""
              && EnvOr(env, "PORTAL_CSRF_FIELD") != ""
    ensures r.Some? ==>
              && IsTrimmedBase(r.value.baseUrl, EnvOr(env, "PORTAL_BASE_URL"))
              && r.value.loginPath == EnvOr(env, "PORTAL_LOGIN_PATH")
              && r.value.pointsPath == EnvOr(env, "PORTAL_POINTS_PATH")
              && r.value.usernameField == EnvOr(env, "PORTAL_USERNAME_FIELD")
              && r.value.passwordField == EnvOr(env, "PORTAL_PASSWORD_FIELD")
              && r.value.csrfField == EnvOr(env, "PORTAL_CSRF_FIELD")
  {
    TrimmedNonEmpty(EnvOr(env, "PORTAL_BASE_URL"));
    var cfg := Config(
      TrimTrailingSlashes(EnvOr(env, "PORTAL_BASE_URL")),
      EnvOr(env, "PORTAL_LOGIN_PATH"),
      EnvOr(env, "PORTAL_POINTS_PATH"),
      EnvOr(env, "PORTAL_USERNAME_FIELD"),
      EnvOr(env, "PORTAL_PASSWORD_FIELD"),
      EnvOr(env, "PORTAL_CSRF_FIELD"));
    if cfg.baseUrl != "" && cfg.loginPath != "" && cfg.pointsPath != "" && cfg.usernameField != ""
       && cfg.passwordField != "" && cfg.csrfField != ""
    then Some(cfg)
    else None
  }

  /** Spellings of VERIFY_SSL that turn certificate checking on. */
  const TrueWords: seq<string> := ["1", "true", "yes", "on"]

  /** VERIFY_SSL, default "false", stripped and lower-cased. */
  function VerifySsl(env: map<string, string>): (r: bool)
    ensures "VERIFY_SSL" !in env ==> !r
    ensures "VERIFY_SSL" in env ==> (r <==> LowerStr(Strip(env["VERIFY_SSL"])) in TrueWords)
  {
    var v := if "VERIFY_SSL" in env then env["VERIFY_SSL"] else "false";
    assert "false" !in TrueWords;
    LowerStr(Strip(v)) in TrueWords
  }

  /** The flag reads the setting the way a person would write it: whitespace around the value and
      the case of its letters do not matter. */
  lemma VerifySslNormalizes(env: map<string, string>, a: string, v: string, v': string, b: string)
    requires forall i :: 0 <= i < |a| ==> IsSpace(a[i])
    requires forall i :: 0 <= i < |b| ==> IsSpace(b[i])
    requires LowerStr(v) == LowerStr(v')
    ensures VerifySsl(env["VERIFY_SSL" := a + v + b]) == VerifySsl(env["VERIFY_SSL" := v'])
  {
    StripPadded(a, v, b);
    LowerStrip(v);
    LowerStrip(v');
  }

  /** An unset VERIFY_SSL behaves like the value "false": certificate checking is off. */
  lemma VerifySslDefault(env: map<string, string>)
    requires "VERIFY_SSL" !in env
    ensures VerifySsl(env) == VerifySsl(env["VERIFY_SSL" := "false"]) == false
  {
    assert Strip("false") == "false" by {
      assert !IsSpace('f') && !IsSpace('e');
    }
    assert LowerStr("false") == "false";
  }

  // ---------------------------------------------------------------------------------------
  // Replies

  /** What the bot sends back. A failure report ends with the exception's text; that text is
      fixed for the client's own exceptions and belongs to the HTTP library otherwise. */
  datatype Message = Say(body: string) | FailureReport(lead: string, failure: Failure)

  /** One "key: value" line per entry, in the dict's order. */
  function Lines(points: Entries): (ls: seq<string>)
    ensures |ls| == |points|
    ensures forall i :: 0 <= i < |points| ==> ls[i] == points[i].0 + ": " + points[i].1
  {
    seq(|points|, i requires 0 <= i < |points| => points[i].0 + ": " + points[i].1)
  }

  const Heading := "Your Points:\n"
  const NoPoints := "No points found."

  /** The points message: a heading and one line per entry, or a notice for an empty result. */
  function Format(points: Entries): (s: string)
    ensures |points| == 0 <==> s == NoPoints
    ensures |points| > 0 ==> StartsWith(s, Heading)
    ensures |points| == 1 ==> s == Heading + points[0].0 + ": " + points[0].1
  {
    if |points| == 0 then NoPoints
    else
      var s := Heading + Join(Lines(points), "\n");
      assert s[0] != NoPoints[0];
      assert s[..|Heading|] == Heading;
      s
  }

  /** An entry added to the result adds exactly one line at the end of the message. */
  lemma FormatSnoc(points: Entries, k: string, v: string)
    requires |points| > 0
    ensures Format(points + [(k, v)]) == Format(points) + "\n" + k + ": " + v
  {
    assert Lines(points + [(k, v)]) == Lines(points) + [k + ": " + v];
    JoinSnoc(Lines(points), k + ": " + v, "\n");
  }

  /** The empty-result notice is never sent after a fetch: `fetch_points` raises rather than
      return an empty dict. */
  lemma NoPointsNeverShown(cfg: Config, client: Client, server: Server, trace: seq<Request>)
    requires FetchPoints(cfg, client, server, trace).outcome.Done?
    ensures Format(FetchPoints(cfg, client, server, trace).outcome.value) != NoPoints
    ensures StartsWith(Format(FetchPoints(cfg, client, server, trace).outcome.value), Heading)
  {
  }

  // ---------------------------------------------------------------------------------------
  // The conversation

  /** Where a chat's login conversation stands; `Idle` is both "never started" and `END`. */
  datatype Phase = Idle | AskUsername | AskPassword

  /** `user_sessions`: per chat, the only thing ever stored, `{"username": name}`. */
  type Sessions = map<int, string>

  /** The outcome of one handler: the new sessions table, what was sent, the next phase and the
      requests made to the portal. */
  datatype Turn = Turn(sessions: Sessions, sent: seq<Message>, phase: Phase, trace: seq<Request>)

  /** `/login`: forget any half-finished login of this chat and ask for the username. */
  function LoginCmd(sessions: Sessions, chat: int, trace: seq<Request>): (t: Turn)
    ensures chat !in t.sessions && t.sessions == sessions - {chat}
    ensures t.sent == [Say("Please enter your username:")] && t.phase == AskUsername && t.trace == trace
  {
    Turn(sessions - {chat}, [Say("Please enter your username:")], AskUsername, trace)
  }

  /** `/cancel`. */
  function Cancel(sessions: Sessions, chat: int, trace: seq<Request>): (t: Turn)
    ensures chat !in t.sessions && t.sessions == sessions - {chat}
    ensures t.sent == [Say("Cancelled. Use /login to try again.")] && t.phase == Idle && t.trace == trace
  {
    Turn(sessions - {chat}, [Say("Cancelled. Use /login to try again.")], Idle, trace)
  }

  /** `(update.message.text or "").strip()`; the text filter only lets messages with text through. */
  function Entered(text: string): string {
    Strip(text)
  }

  /** The username prompt: a blank answer asks again; otherwise the stripped name is kept for
      this chat and the password is asked for. */
  function AskUsernameStep(sessions: Sessions, chat: int, text: string, trace: seq<Request>): (t: Turn)
    ensures t.trace == trace
    ensures Entered(text) == "" ==>
              t == Turn(sessions, [Say("Username cannot be empty. Please enter your username:")], AskUsername, trace)
    ensures Entered(text) != "" ==>
              && t.sessions == sessions[chat := Entered(text)]
              && t.sent == [Say("Please enter your password:")]
              && t.phase == AskPassword
  {
    var username := Entered(text);
    if username == "" then
      Turn(sessions, [Say("Username cannot be empty. Please enter your username:")], AskUsername, trace)
    else
      Turn(sessions[chat := username], [Say("Please enter your password:")], AskPassword, trace)
  }

  const LoginFailedLead := "Login failed due to a connection or portal error.\nDetails: "
  const RejectedNotice := "Invalid credentials or portal rejected the login. Use /login to try again."
  const FetchFailedLead := "Could not retrieve your points. The portal HTML likely changed or requires updated selectors.\nDetails: "

  /** The replies after the login attempt `login`: a failure report, the rejection notice, or
      the points (or the fetch's failure) after a successful login. */
  function Conclude(cfg: Config, login: Attempt<Client>, server: Server): (r: (seq<Message>, seq<Request>))
    ensures login.outcome.Raised? ==> r == ([FailureReport(LoginFailedLead, login.outcome.failure)], login.trace)
    ensures login.outcome.Done? && !login.outcome.value.loggedIn ==> r == ([Say(RejectedNotice)], login.trace)
    ensures login.outcome.Done? && login.outcome.value.loggedIn ==>
              && |r.0| == 2
              && r.0[0] == Say("Login successful. Fetching your points...")
              && var fetch := FetchPoints(cfg, login.outcome.value, server, login.trace);
              && r.1 == fetch.trace
              && r.0[1] == (if fetch.outcome.Done? then Say(Format(fetch.outcome.value))
                            else FailureReport(FetchFailedLead, fetch.outcome.failure))
  {
    match login.outcome
    case Raised(f) => ([FailureReport(LoginFailedLead, f)], login.trace)
    case Done(client) =>
      if !client.loggedIn then ([Say(RejectedNotice)], login.trace)
      else
        var fetch := FetchPoints(cfg, client, server, login.trace);
        var last := match fetch.outcome
          case Done(points) => Say(Format(points))
          case Raised(f) => FailureReport(FetchFailedLead, f);
        ([Say("Login successful. Fetching your points..."), last], fetch.trace)
  }

  /** After the password: log in with a fresh client, then fetch and format the points. Every
      outcome but a blank password ends the conversation and forgets the chat's session. */
  function AskPasswordStep(cfg: Config, sessions: Sessions, chat: int, text: string,
                           server: Server, trace: seq<Request>): (t: Turn)
    ensures chat !in sessions ==> t == Turn(sessions, [Say("Session expired. Please /login again.")], Idle, trace)
    ensures chat in sessions && Entered(text) == "" ==>
              t == Turn(sessions, [Say("Password cannot be empty. Please enter your password:")], AskPassword, trace)
    ensures chat in sessions && Entered(text) != "" ==>
              && t.sessions == sessions - {chat}
              && t.phase == Idle
              && var r := Conclude(cfg, Login(cfg, sessions[chat], Entered(text), server, trace), server);
              && t.sent == [Say("Logging in to the portal...")] + r.0
              && t.trace == r.1
  {
    if chat !in sessions then Turn(sessions, [Say("Session expired. Please /login again.")], Idle, trace)
    else
      var password := Entered(text);
      if password == "" then
        Turn(sessions, [Say("Password cannot be empty. Please enter your password:")], AskPassword, trace)
      else
        var r := Conclude(cfg, Login(cfg, sessions[chat], password, server, trace), server);
        Turn(sessions - {chat}, [Say("Logging in to the portal...")] + r.0, Idle, r.1)
  }

  /** What reaches the conversation handler. */
  datatype Event = Command(name: string) | TextMessage(text: string)

  /** The events the conversation handler takes in a phase: `/login` always (it is the entry
      point and re-entry is allowed), `/cancel` and plain text only inside a conversation. */
  predicate Handles(phase: Phase, e: Event) {
    match e
    case Command(name) => name == "login" || (name == "cancel" && phase != Idle)
    case TextMessage(_) => phase != Idle
  }

  /** The conversation handler's dispatch: `/login` enters (or re-enters) from any phase,
      `/cancel` works inside the conversation, and plain text goes to the prompt of the
      current phase. None: the handler does not take the event. */
  function Step(cfg: Config, phase: Phase, sessions: Sessions, chat: int, e: Event,
                server: Server, trace: seq<Request>): (r: Option<Turn>)
    ensures r.Some? <==> Handles(phase, e)
    ensures e == Command("login") ==> r == Some(LoginCmd(sessions, chat, trace))
    ensures e == Command("cancel") && phase != Idle ==> r == Some(Cancel(sessions, chat, trace))
    ensures phase == AskUsername && e.TextMessage? ==> r == Some(AskUsernameStep(sessions, chat, e.text, trace))
    ensures phase == AskPassword && e.TextMessage? ==> r == Some(AskPasswordStep(cfg, sessions, chat, e.text, server, trace))
  {
    match e
    case Command(name) =>
      if name == "login" then Some(LoginCmd(sessions, chat, trace))
      else if name == "cancel" && phase != Idle then Some(Cancel(sessions, chat, trace))
      else None
    case TextMessage(text) =>
      match phase
      case Idle => None
      case AskUsername => Some(AskUsernameStep(sessions, chat, text, trace))
      case AskPassword => Some(AskPasswordStep(cfg, sessions, chat, text, server, trace))
  }

  /** The session table agrees with the chat's phase: a username is stored exactly while the
      password is being asked for, and it is never blank. */
  predicate InStep(phase: Phase, sessions: Sessions, chat: int) {
    (chat in sessions <==> phase == AskPassword) && (chat in sessions ==> sessions[chat] != "")
  }

  /** The password prompt ends in step whatever the portal does. */
  lemma AskPasswordKeepsSessionsInStep(cfg: Config, sessions: Sessions, chat: int, text: string,
                                       server: Server, trace: seq<Request>)
    requires InStep(AskPassword, sessions, chat)
    ensures var t := AskPasswordStep(cfg, sessions, chat, text, server, trace);
            && InStep(t.phase, t.sessions, chat)
            && t.sessions - {chat} == sessions - {chat}
  {
    var t := AskPasswordStep(cfg, sessions, chat, text, server, trace);
    if Entered(text) == "" {
      assert t.sessions == sessions && t.phase == AskPassword;
    } else {
      assert t.sessions == sessions - {chat} && t.phase == Idle;
    }
  }

  /** The username prompt ends in step: a name is stored only together with the move to the
      password prompt. */
  lemma AskUsernameKeepsSessionsInStep(sessions: Sessions, chat: int, text: string, trace: seq<Request>)
    requires InStep(AskUsername, sessions, chat)
    ensures var t := AskUsernameStep(sessions, chat, text, trace);
            && InStep(t.phase, t.sessions, chat)
            && t.sessions - {chat} == sessions - {chat}
  {
    if Entered(text) != "" {
      assert sessions[chat := Entered(text)] - {chat} == sessions - {chat};
    }
  }

  /** Every handled event keeps the session table in step with the chat's phase and leaves the
      other chats' sessions alone. */
  lemma StepKeepsSessionsInStep(cfg: Config, phase: Phase, sessions: Sessions, chat: int, e: Event,
                                server: Server, trace: seq<Request>)
    requires InStep(phase, sessions, chat)
    requires Handles(phase, e)
    ensures var t := Step(cfg, phase, sessions, chat, e, server, trace).value;
            && InStep(t.phase, t.sessions, chat)
            && t.sessions - {chat} == sessions - {chat}
  {
    match e
    case Command(name) =>
      if name == "login" {
        assert Step(cfg, phase, sessions, chat, e, server, trace).value == LoginCmd(sessions, chat, trace);
      } else {
        assert Step(cfg, phase, sessions, chat, e, server, trace).value == Cancel(sessions, chat, trace);
      }
    case TextMessage(text) =>
      if phase == AskUsername {
        AskUsernameKeepsSessionsInStep(sessions, chat, text, trace);
      } else {
        AskPasswordKeepsSessionsInStep(cfg, sessions, chat, text, server, trace);
      }
  }

}

=== FILE: dict.dfy ===
/** Python's insertion-ordered `dict[str, str]` as a sequence of (key, value) entries.
    Assigning to a present key replaces its value in place; a new key goes to the end. */
module Dict {
  import opened Base

  type Entries = seq<(string, string)>

  /** The keys in iteration order. */
  function Keys(m: Entries): (ks: seq<string>)
    ensures |ks| == |m|
  {
    seq(|m|, i requires 0 <= i < |m| => m[i].0)
  }

  predicate HasKey(m: Entries, k: string) {
    exists i :: 0 <= i < |m| && m[i].0 == k
  }

  /** No key occurs twice, as in a real dict. */
  predicate Distinct(m: Entries) {
    forall i, j :: 0 <= i < j < |m| ==> m[i].0 != m[j].0
  }

  /** Position of the entry for `k`. */
  function IndexOf(m: Entries, k: string): (r: Option<nat>)
    ensures r.Some? ==> r.value < |m| && m[r.value].0 == k
    ensures r.Some? ==> forall j :: 0 <= j < r.value ==> m[j].0 != k
    ensures r.None? <==> !HasKey(m, k)
  {
    if |m| == 0 then None
    else if m[0].0 == k then Some(0)
    else
      match IndexOf(m[1..], k)
      case Some(i) => Some(i + 1)
      case None =>
        assert forall j :: 1 <= j < |m| ==> m[j].0 == m[1..][j - 1].0;
        None
  }

  /** The first position holding `k` is the index `IndexOf` reports. */
  lemma IndexOfIs(m: Entries, k: string, i: nat)
    requires i < |m| && m[i].0 == k
    requires forall j :: 0 <= j < i ==> m[j].0 != k
    ensures IndexOf(m, k) == Some(i)
  {
  }

  /** Python's `m.get(k)`. */
  function Get(m: Entries, k: string): (r: Option<string>)
    ensures r.Some? <==> HasKey(m, k)
  {
    match IndexOf(m, k)
    case Some(i) => Some(m[i].1)
    case None => None
  }

  /** Python's `m[k] = v`. */
  function Put(m: Entries, k: string, v: string): (r: Entries)
    ensures Get(r, k) == Some(v)
    ensures forall k' :: k' != k ==> Get(r, k') == Get(m, k')
    ensures HasKey(m, k) ==> Keys(r) == Keys(m)
    ensures !HasKey(m, k) ==> r == m + [(k, v)]
    ensures Distinct(m) ==> Distinct(r)
  {
    match IndexOf(m, k)
    case Some(i) =>
      var r := m[i := (k, v)];
      assert Keys(r) == Keys(m);
      assert forall k' :: IndexOf(r, k') == IndexOf(m, k') by {
        forall k' ensures IndexOf(r, k') == IndexOf(m, k') {
          if IndexOf(m, k').Some? {
            IndexOfIs(r, k', IndexOf(m, k').value);
          }
        }
      }
      r
    case None =>
      var r := m + [(k, v)];
      IndexOfIs(r, k, |m|);
      assert forall k' :: k' != k ==> IndexOf(r, k') == IndexOf(m, k') by {
        forall k' | k' != k ensures IndexOf(r, k') == IndexOf(m, k') {
          if IndexOf(m, k').Some? {
            IndexOfIs(r, k', IndexOf(m, k').value);
          }
        }
      }
      r
  }

  /** A lookup in `a + b` finds the entry of `a` first, which is how the keys a dict literal
      wrote first keep their values when later entries are only appended. */
  lemma GetAppend(a: Entries, b: Entries, k: string)
    ensures Get(a + b, k) == if HasKey(a, k) then Get(a, k) else Get(b, k)
  {
    if HasKey(a, k) {
      IndexOfIs(a + b, k, IndexOf(a, k).value);
    } else if HasKey(b, k) {
      IndexOfIs(a + b, k, |a| + IndexOf(b, k).value);
    } else {
      assert !HasKey(a + b, k);
    }
  }

  /** Overwriting keeps every key present before and adds at most the new one. */
  lemma PutKeys(m: Entries, k: string, v: string, k': string)
    ensures HasKey(Put(m, k, v), k') <==> HasKey(m, k') || k' == k
  {
    assert Get(Put(m, k, v), k').Some? <==> Get(m, k').Some? || k' == k;
  }

  /** An assignment that may be skipped: `(k, Some(v))` stands for `m[k] = v`, `(k, None)` for
      an `if` whose condition failed. */
  type Write = (string, Option<string>)

  /** Some write of `writes` assigns to `k`. */
  predicate Written(writes: seq<Write>, k: string) {
    exists i :: 0 <= i < |writes| && writes[i].0 == k && writes[i].1.Some?
  }

  /** `writes[i]` assigns, and no later write assigns to the same key. */
  predicate LastWrite(writes: seq<Write>, i: nat)
    requires i < |writes|
  {
    writes[i].1.Some? && !Written(writes[i + 1..], writes[i].0)
  }

  /** A block of conditional assignments run in order. Keys never written keep their value,
      every written key ends with the value of its last write, no key is lost, and the only new
      keys are written ones. */
  function PutAll(m: Entries, writes: seq<Write>): (r: Entries)
    decreases |writes|
    ensures Distinct(m) ==> Distinct(r)
    ensures forall k :: !Written(writes, k) ==> Get(r, k) == Get(m, k)
    ensures forall i :: 0 <= i < |writes| && LastWrite(writes, i) ==> Get(r, writes[i].0) == writes[i].1
    ensures forall k :: HasKey(r, k) <==> HasKey(m, k) || Written(writes, k)
  {
    if |writes| == 0 then m
    else
      var (k, v) := writes[0];
      var m' := if v.Some? then Put(m, k, v.value) else m;
      var rest := writes[1..];
      var r := PutAll(m', rest);
      assert forall k' :: Written(writes, k') <==> (k' == k && v.Some?) || Written(rest, k') by {
        forall k' ensures Written(writes, k') <==> (k' == k && v.Some?) || Written(rest, k') {
          if Written(rest, k') {
            var i :| 0 <= i < |rest| && rest[i].0 == k' && rest[i].1.Some?;
            assert writes[i + 1] == rest[i];
          }
          if Written(writes, k') && !(k' == k && v.Some?) {
            var i :| 0 <= i < |writes| && writes[i].0 == k' && writes[i].1.Some?;
            assert rest[i - 1] == writes[i];
          }
        }
      }
      assert forall k' :: HasKey(m', k') <==> HasKey(m, k') || (k' == k && v.Some?) by {
        forall k' ensures HasKey(m', k') <==> HasKey(m, k') || (k' == k && v.Some?) {
          if v.Some? {
            PutKeys(m, k, v.value, k');
          }
        }
      }
      forall i | 0 <= i < |writes| && LastWrite(writes, i)
        ensures Get(r, writes[i].0) == writes[i].1
      {
        if i == 0 {
          assert writes[1..] == rest;
        } else {
          assert rest[i - 1] == writes[i];
          assert rest[i..] == writes[i + 1..];
          assert LastWrite(rest, i - 1);
        }
      }
      r
  }

  /** `k` is a key exactly when it occurs in the iteration order. */
  lemma KeysHasKey(m: Entries, k: string)
    ensures HasKey(m, k) <==> k in Keys(m)
  {
    if HasKey(m, k) {
      var i :| 0 <= i < |m| && m[i].0 == k;
      assert Keys(m)[i] == k;
    }
  }

  /** The keys that `writes` adds to a dict whose keys are `known`: every assigned key not yet
      present, once, in the order of its first assignment. */
  function NewKeys(known: seq<string>, writes: seq<Write>): seq<string>
    decreases |writes|
  {
    if |writes| == 0 then []
    else if writes[0].1.Some? && writes[0].0 !in known then [writes[0].0] + NewKeys(known + [writes[0].0], writes[1..])
    else NewKeys(known, writes[1..])
  }

  /** Iteration order after a block of assignments: the old keys in their old places, then the
      new keys in the order they were first assigned. */
  lemma {:induction false} PutAllOrder(m: Entries, writes: seq<Write>)
    decreases |writes|
    ensures Keys(PutAll(m, writes)) == Keys(m) + NewKeys(Keys(m), writes)
  {
    if |writes| > 0 {
      var k, v, rest := writes[0].0, writes[0].1, writes[1..];
      var m' := if v.Some? then Put(m, k, v.value) else m;
      assert PutAll(m, writes) == PutAll(m', rest);
      PutAllOrder(m', rest);
      KeysHasKey(m, k);
      if v.Some? && !HasKey(m, k) {
        assert m' == m + [(k, v.value)];
        assert Keys(m') == Keys(m) + [k];
        assert NewKeys(Keys(m), writes) == [k] + NewKeys(Keys(m) + [k], rest);
      } else {
        assert Keys(m') == Keys(m);
        assert NewKeys(Keys(m), writes) == NewKeys(Keys(m), rest);
      }
    }
  }

  /** A dict is empty exactly when it has no key. */
  lemma EmptyIffNoKeys(m: Entries)
    ensures |m| == 0 <==> forall k :: !HasKey(m, k)
  {
    if |m| > 0 {
      assert HasKey(m, m[0].0);
    }
  }

  /** Writes to pairwise different keys do not interfere: each key ends with its own write, or
      keeps its old value when that write was skipped. */
  lemma PutAllDistinctKeys(m: Entries, writes: seq<Write>)
    requires forall i, j :: 0 <= i < j < |writes| ==> writes[i].0 != writes[j].0
    ensures forall i :: 0 <= i < |writes| ==>
              Get(PutAll(m, writes), writes[i].0) == if writes[i].1.Some? then writes[i].1 else Get(m, writes[i].0)
  {
    forall i | 0 <= i < |writes|
      ensures Get(PutAll(m, writes), writes[i].0) == if writes[i].1.Some? then writes[i].1 else Get(m, writes[i].0)
    {
      if writes[i].1.Some? {
        var later := writes[i + 1..];
        assert !Written(later, writes[i].0) by {
          forall j | 0 <= j < |later| ensures later[j].0 != writes[i].0 {
            assert later[j] == writes[i + 1 + j];
          }
        }
        assert LastWrite(writes, i);
      } else {
        assert !Written(writes, writes[i].0);
      }
    }
  }

  /** If every key of `a` is a key of `b`, an empty `b` means an empty `a`. */
  lemma EmptyBelow(a: Entries, b: Entries)
    requires forall k :: HasKey(a, k) ==> HasKey(b, k)
    ensures |b| == 0 ==> |a| == 0
  {
    EmptyIffNoKeys(a);
    EmptyIffNoKeys(b);
  }
}

=== FILE: points.dfy ===
/** `fetch_points`: locating the points page, reading the summary badges and profile fields,
    the AJAX summary, the structural fallbacks, the per-semester sweep and the empty-result rule. */
module Points {
  import opened Base
  import opened Text
  import opened Dict
  import opened Web
  import opened Scan
  import opened Portal

  // ---------------------------------------------------------------------------------------
  // Locating the page

  /** Words that mark a link as leading to the points page. */
  const LinkKeywords: seq<string> := ["point", "grade", "result", "cgpa", "transcript"]

  predicate MentionsKeyword(s: string) {
    exists i :: 0 <= i < |LinkKeywords| && Contains(s, LinkKeywords[i])
  }

  /** A link with a non-empty href whose lower-cased href or text mentions a keyword. */
  predicate IsPointsLink(a: Anchor) {
    Truthy(a.href) && (MentionsKeyword(LowerStr(a.href.value)) || MentionsKeyword(LowerStr(a.text)))
  }

  /** The link discovery follows: the first qualifying one in document order. */
  function ChooseLink(anchors: seq<Anchor>): (r: Option<nat>)
    ensures r.Some? ==> r.value < |anchors| && IsPointsLink(anchors[r.value])
    ensures r.Some? ==> forall j :: 0 <= j < r.value ==> !IsPointsLink(anchors[j])
    ensures r.None? <==> forall j :: 0 <= j < |anchors| ==> !IsPointsLink(anchors[j])
  {
    FirstWhere(anchors, IsPointsLink)
  }

  /** The links discovery searches: those of the landing page recorded at login when its text is
      non-empty; otherwise those of the home page, fetched now and used only if it answers
      without an HTTP error. */
  function DiscoveryLinks(cfg: Config, client: Client, server: Server, trace: seq<Request>): (a: Attempt<seq<Anchor>>)
    ensures client.landing.Some? && client.landing.value.text != "" ==>
              a == Attempt(Done(client.landing.value.doc.anchors), trace)
    ensures !(client.landing.Some? && client.landing.value.text != "") ==>
              && a.trace == trace + [Fetch(Url(cfg.baseUrl, "/"))]
              && (a.outcome.Raised? <==> server(a.trace).TransportError?)
              && (a.outcome.Done? ==>
                    a.outcome.value == (if IsHttpError(Answer(server, a.trace).status) then []
                                        else Answer(server, a.trace).page.anchors))
    ensures a.outcome.Raised? ==> a.outcome.failure == TransportFailure
  {
    if client.landing.Some? && client.landing.value.text != "" then
      Attempt(Done(client.landing.value.doc.anchors), trace)
    else
      var sent := trace + [Fetch(Url(cfg.baseUrl, "/"))];
      match server(sent)
      case TransportError => Attempt(Raised(TransportFailure), sent)
      case Answered(home) => Attempt(Done(if IsHttpError(home.status) then [] else home.page.anchors), sent)
  }

  /** The page to parse and the URL it came from (sent later as the AJAX Referer). */
  datatype Located = Located(response: Response, url: string)

  /** `raise_for_status()` on the page finally fetched. */
  function Checked(r: Response, url: string, trace: seq<Request>): (a: Attempt<Located>)
    ensures a.trace == trace
    ensures a.outcome.Done? <==> !IsHttpError(r.status)
    ensures a.outcome.Done? ==> a.outcome.value == Located(r, url)
    ensures a.outcome.Raised? ==> a.outcome.failure == HttpError(r.status)
  {
    if IsHttpError(r.status) then Attempt(Raised(HttpError(r.status)), trace)
    else Attempt(Done(Located(r, url)), trace)
  }

  /** After a 404 on the configured points path: follow the first points-like link, resolved
      like a form action; without one, the 404 itself is raised. */
  function Discover(cfg: Config, client: Client, server: Server, trace: seq<Request>): (a: Attempt<Located>)
    ensures |trace| <= |a.trace| <= |trace| + 2 && a.trace[..|trace|] == trace
    ensures a.outcome.Done? ==>
              && var links := DiscoveryLinks(cfg, client, server, trace);
              && links.outcome.Done? && ChooseLink(links.outcome.value).Some?
              && var link := links.outcome.value[ChooseLink(links.outcome.value).value];
              && a.outcome.value.url == Resolve(cfg.baseUrl, link.href.value)
              && a.trace == links.trace + [Fetch(a.outcome.value.url)]
              && server(a.trace) == Answered(a.outcome.value.response)
              && !IsHttpError(a.outcome.value.response.status)
    ensures a.outcome.Raised? ==>
              || a.outcome.failure == TransportFailure
              || a.outcome.failure.HttpError?
    ensures var links := DiscoveryLinks(cfg, client, server, trace);
            links.outcome.Raised? ==> a == Attempt(Raised(links.outcome.failure), links.trace)
    ensures var links := DiscoveryLinks(cfg, client, server, trace);
            links.outcome.Done? && ChooseLink(links.outcome.value).None? ==>
              a == Attempt(Raised(HttpError(404)), links.trace)
    ensures var links := DiscoveryLinks(cfg, client, server, trace);
            links.outcome.Done? && ChooseLink(links.outcome.value).Some? ==>
              var url := Resolve(cfg.baseUrl, links.outcome.value[ChooseLink(links.outcome.value).value].href.value);
              && a.trace == links.trace + [Fetch(url)]
              && (server(a.trace).TransportError? ==> a.outcome == Raised(TransportFailure))
              && (server(a.trace).Answered? ==> a == Checked(Answer(server, a.trace), url, a.trace))
  {
    var links := DiscoveryLinks(cfg, client, server, trace);
    assert links.trace[..|trace|] == trace;
    match links.outcome
    case Raised(f) => Attempt(Raised(f), links.trace)
    case Done(anchors) =>
      match ChooseLink(anchors)
      case None => Attempt(Raised(HttpError(404)), links.trace)
      case Some(i) =>
        var url := Resolve(cfg.baseUrl, anchors[i].href.value);
        var sent := links.trace + [Fetch(url)];
        assert sent[..|trace|] == trace;
        match server(sent)
        case TransportError => Attempt(Raised(TransportFailure), sent)
        case Answered(r) => Checked(r, url, sent)
  }

  /** The first half of `fetch_points`: GET the configured points page; on a 404 only, try
      discovery; then `raise_for_status()`. */
  function LocatePage(cfg: Config, client: Client, server: Server, trace: seq<Request>): (a: Attempt<Located>)
    ensures |trace| < |a.trace| <= |trace| + 3
    ensures a.trace[..|trace| + 1] == trace + [Fetch(PointsUrl(cfg))]
    ensures server(a.trace[..|trace| + 1]).Answered? && Answer(server, a.trace[..|trace| + 1]).status != 404 ==>
              && |a.trace| == |trace| + 1
              && a == Checked(Answer(server, a.trace[..|trace| + 1]), PointsUrl(cfg), a.trace)
    ensures a.outcome.Done? ==>
              && server(a.trace) == Answered(a.outcome.value.response)
              && !IsHttpError(a.outcome.value.response.status)
    ensures a.outcome.Raised? ==> a.outcome.failure == TransportFailure || a.outcome.failure.HttpError?
    ensures server(trace + [Fetch(PointsUrl(cfg))]).TransportError? ==>
              a == Attempt(Raised(TransportFailure), trace + [Fetch(PointsUrl(cfg))])
    ensures server(trace + [Fetch(PointsUrl(cfg))]).Answered? && Answer(server, trace + [Fetch(PointsUrl(cfg))]).status == 404 ==>
              a == Discover(cfg, client, server, trace + [Fetch(PointsUrl(cfg))])
  {
    var sent := trace + [Fetch(PointsUrl(cfg))];
    assert sent[..|trace|] == trace;
    match server(sent)
    case TransportError => Attempt(Raised(TransportFailure), sent)
    case Answered(r) =>
      if r.status == 404 then
        var a := Discover(cfg, client, server, sent);
        assert a.trace[..|sent|] == sent;
        a
      else Checked(r, PointsUrl(cfg), sent)
  }

  // ---------------------------------------------------------------------------------------
  // Reading the page

  /** `text_by_id`: the stripped text of the element with that id, if there is one. */
  function TextById(doc: Document, id: string): Option<string> {
    if id in doc.ids then Some(doc.ids[id]) else None
  }

  /** The summary badges and the result keys they fill, in the client's order. */
  const BadgeIds: seq<string> := [
    "current_semester_name", "current_semester_scr", "current_semester_sgp",
    "current_semester_sgpa", "current_semester_cgpa", "current_semester_status"]
  const BadgeKeys: seq<string> := ["Semester", "SCR", "SGP", "SGPA", "CGPA", "Status"]

  /** The profile keys, in the client's order. */
  const ProfileKeys: seq<string> := ["Full Name", "Username", "Password"]

  /** Every result key of the page, badges then profile, is different from the others; the
      field labels are the badge keys after "Semester". */
  lemma PageKeysDistinct()
    ensures forall i, j :: 0 <= i < j < |BadgeKeys + ProfileKeys| ==> (BadgeKeys + ProfileKeys)[i] != (BadgeKeys + ProfileKeys)[j]
    ensures forall i :: 0 <= i < |FieldLabels| ==> FieldLabels[i] == BadgeKeys[i + 1]
  {
  }

  /** The password shown on the page: the `pass` span wins over the "Password" heading's panel. */
  function PasswordOf(p: Profile): (r: Option<string>)
    ensures Truthy(p.passSpan) ==> r == p.passSpan
    ensures !Truthy(p.passSpan) ==> r == IfTruthy(p.password)
  {
    if Truthy(p.passSpan) then p.passSpan else IfTruthy(p.password)
  }

  function PageWrites(doc: Document): (w: seq<Write>)
    ensures |w| == |BadgeKeys| + |ProfileKeys|
    ensures forall i :: 0 <= i < |BadgeKeys| ==> w[i] == (BadgeKeys[i], IfTruthy(TextById(doc, BadgeIds[i])))
    ensures w[6] == ("Full Name", IfTruthy(doc.profile.fullName))
    ensures w[7] == ("Username", IfTruthy(doc.profile.username))
    ensures w[8] == ("Password", PasswordOf(doc.profile))
    ensures forall i, j :: 0 <= i < j < |w| ==> w[i].0 != w[j].0
  {
    var w := seq(6, i requires 0 <= i < 6 => (BadgeKeys[i], IfTruthy(TextById(doc, BadgeIds[i]))))
      + [ (ProfileKeys[0], IfTruthy(doc.profile.fullName)),
          (ProfileKeys[1], IfTruthy(doc.profile.username)),
          (ProfileKeys[2], PasswordOf(doc.profile)) ];
    assert forall i :: 0 <= i < |w| ==> w[i].0 == (BadgeKeys + ProfileKeys)[i];
    PageKeysDistinct();
    w
  }

  /** Nothing on the page itself yields an entry. */
  predicate PageIsBlank(doc: Document) {
    && (forall i :: 0 <= i < |BadgeIds| ==> !Truthy(TextById(doc, BadgeIds[i])))
    && !Truthy(doc.profile.fullName) && !Truthy(doc.profile.username) && PasswordOf(doc.profile).None?
  }

  /** The result after the badges and the profile. */
  function PageEntries(doc: Document): (m: Entries)
    ensures Distinct(m)
  {
    PutAll([], PageWrites(doc))
  }

  /** Each badge and profile field is filed under its key exactly when its text is non-empty,
      and nothing else is filed. */
  lemma PageEntriesFiled(doc: Document)
    ensures var m := PageEntries(doc);
            && (forall i :: 0 <= i < |BadgeKeys| ==> Get(m, BadgeKeys[i]) == IfTruthy(TextById(doc, BadgeIds[i])))
            && Get(m, "Full Name") == IfTruthy(doc.profile.fullName)
            && Get(m, "Username") == IfTruthy(doc.profile.username)
            && Get(m, "Password") == PasswordOf(doc.profile)
            && (forall k :: HasKey(m, k) ==> k in BadgeKeys || k in ProfileKeys)
  {
    var w := PageWrites(doc);
    var m := PutAll([], w);
    PutAllDistinctKeys([], w);
    forall i | 0 <= i < |BadgeKeys| ensures Get(m, BadgeKeys[i]) == IfTruthy(TextById(doc, BadgeIds[i])) {
      assert w[i].0 == BadgeKeys[i];
    }
    assert Get(m, w[6].0) == w[6].1 && Get(m, w[7].0) == w[7].1 && Get(m, w[8].0) == w[8].1;
    forall k | HasKey(m, k) ensures k in BadgeKeys || k in ProfileKeys {
      var i :| 0 <= i < |w| && w[i].0 == k && w[i].1.Some?;
      if i >= 6 { assert k == ProfileKeys[i - 6]; }
    }
  }

  /** The page alone yields nothing exactly when it is blank. */
  lemma PageEntriesEmpty(doc: Document)
    ensures |PageEntries(doc)| == 0 <==> PageIsBlank(doc)
  {
    var w := PageWrites(doc);
    var m := PutAll([], w);
    EmptyIffNoKeys(m);
    if PageIsBlank(doc) {
      forall k ensures !HasKey(m, k) {
        forall j | 0 <= j < |w| ensures w[j].1.None? {
          if j < 6 { assert w[j].1 == IfTruthy(TextById(doc, BadgeIds[j])); }
        }
      }
    } else {
      var j :| 0 <= j < |w| && w[j].1.Some?;
      assert HasKey(m, w[j].0);
    }
  }

  // ---------------------------------------------------------------------------------------
  // The AJAX summary

  /** The summary fields, in the order the client files an AJAX answer under them. */
  const FieldLabels: seq<string> := ["SCR", "SGP", "SGPA", "CGPA", "Status"]

  /** The summary is requested unless SCR, SGP, SGPA and CGPA all show on the page. */
  predicate NeedAjax(doc: Document) {
    !(Truthy(TextById(doc, "current_semester_scr")) && Truthy(TextById(doc, "current_semester_sgp"))
      && Truthy(TextById(doc, "current_semester_sgpa")) && Truthy(TextById(doc, "current_semester_cgpa")))
  }

  /** `semesterName` of the summary request: the name badge, or else the first option of the
      semester selector when its text is non-empty, or else "". */
  function SummaryName(doc: Document): (r: string)
    ensures Truthy(TextById(doc, "current_semester_name")) ==> r == doc.ids["current_semester_name"]
    ensures r != "" ==>
              || Truthy(TextById(doc, "current_semester_name"))
              || (doc.semesterSelect.Some? && |doc.semesterSelect.value| > 0 && r == doc.semesterSelect.value[0].text)
    ensures !Truthy(TextById(doc, "current_semester_name")) ==>
              r == (if doc.semesterSelect.Some? && |doc.semesterSelect.value| > 0 then doc.semesterSelect.value[0].text else "")
  {
    var badge := TextById(doc, "current_semester_name");
    if Truthy(badge) then badge.value
    else match doc.semesterSelect
      case Some(opts) => if |opts| > 0 && opts[0].text != "" then opts[0].text else ""
      case None => ""
  }

  /** `str(info.get(key))` behind an `is not None` test. */
  function ScalarText(o: Option<Scalar>): Option<string> {
    if o.Some? then Some(o.value.str) else None
  }

  /** The semester name of an answer, when truthy. */
  function NamedSemester(info: Summary): Option<string> {
    if info.semesterName.Some? && info.semesterName.value.truthy then Some(info.semesterName.value.str) else None
  }

  /** The decoded field filed under `FieldLabels[i]`. */
  function FieldValue(info: Summary, i: nat): Option<Scalar>
    requires i < |FieldLabels|
  {
    [info.scr, info.sgp, info.sgpa, info.cgpa, info.semesterStatus][i]
  }

  /** The fields of a decoded answer, each filed under `prefix` + its label. */
  function FieldWrites(info: Summary, prefix: string): (w: seq<Write>)
    ensures |w| == |FieldLabels|
    ensures forall i :: 0 <= i < |w| ==> w[i] == (prefix + FieldLabels[i], ScalarText(FieldValue(info, i)))
  {
    seq(|FieldLabels|, i requires 0 <= i < |FieldLabels| => (prefix + FieldLabels[i], ScalarText(FieldValue(info, i))))
  }

  /** The five field keys under one prefix are pairwise different. */
  lemma FieldKeysDistinct(prefix: string)
    ensures forall i, j :: 0 <= i < j < |FieldLabels| ==> prefix + FieldLabels[i] != prefix + FieldLabels[j]
  {
    forall i, j | 0 <= i < j < |FieldLabels| ensures prefix + FieldLabels[i] != prefix + FieldLabels[j] {
      assert (prefix + FieldLabels[i])[|prefix|..] == FieldLabels[i];
      assert (prefix + FieldLabels[j])[|prefix|..] == FieldLabels[j];
    }
  }

  /** The five keys an answer is filed under: `prefix` followed by each field label. */
  function FieldKeys(prefix: string): (ks: seq<string>)
    ensures |ks| == |FieldLabels|
    ensures forall i :: 0 <= i < |ks| ==> ks[i] == prefix + FieldLabels[i]
  {
    seq(|FieldLabels|, i requires 0 <= i < |FieldLabels| => prefix + FieldLabels[i])
  }

  /** The status the text fallback reports: the regex's group, stripped (possibly to ""). */
  function ScannedStatus(txt: string): Option<string> {
    match FindStatus(txt)
    case Some(v) => Some(Strip(v))
    case None => None
  }

  /** The order in which the regex fallback assigns the fields, as indices into `FieldLabels`:
      SGPA, CGPA, SGP, SCR, then the status. */
  const TextOrder: seq<nat> := [2, 3, 1, 0, 4]

  /** What the regex fallback finds for `FieldLabels[i]`. */
  function ScannedValue(txt: string, i: nat): Option<string>
    requires i < |FieldLabels|
  {
    [FindNum(txt, "scr"), FindNum(txt, "sgp"), FindNum(txt, "sgpa"), FindNum(txt, "cgpa"), ScannedStatus(txt)][i]
  }

  /** The regex fallback for an answer that is not the expected JSON, in the client's order. */
  function TextWrites(txt: string, prefix: string): (w: seq<Write>)
    ensures |w| == |TextOrder|
    ensures forall k :: 0 <= k < |w| ==> w[k].0 in FieldKeys(prefix)
    ensures forall k :: 0 <= k < |w| ==> w[k] == (prefix + FieldLabels[TextOrder[k]], ScannedValue(txt, TextOrder[k]))
  {
    var ks := FieldKeys(prefix);
    assert ks[0] == prefix + FieldLabels[0] && ks[1] == prefix + FieldLabels[1] && ks[2] == prefix + FieldLabels[2];
    assert ks[3] == prefix + FieldLabels[3] && ks[4] == prefix + FieldLabels[4];
    [ (prefix + FieldLabels[2], FindNum(txt, "sgpa")),
      (prefix + FieldLabels[3], FindNum(txt, "cgpa")),
      (prefix + FieldLabels[1], FindNum(txt, "sgp")),
      (prefix + FieldLabels[0], FindNum(txt, "scr")),
      (prefix + FieldLabels[4], ScannedStatus(txt)) ]
  }

  /** The regex fallback assigns each of the five keys once. */
  lemma TextWritesDistinct(txt: string, prefix: string)
    ensures var w := TextWrites(txt, prefix);
            forall a, b :: 0 <= a < b < |w| ==> w[a].0 != w[b].0
  {
    var w := TextWrites(txt, prefix);
    FieldKeysDistinct(prefix);
    forall a, b | 0 <= a < b < |w| ensures w[a].0 != w[b].0 {
      assert TextOrder[a] != TextOrder[b];
      if TextOrder[a] < TextOrder[b] {
        assert prefix + FieldLabels[TextOrder[a]] != prefix + FieldLabels[TextOrder[b]];
      } else {
        assert prefix + FieldLabels[TextOrder[b]] != prefix + FieldLabels[TextOrder[a]];
      }
    }
  }

  /** What an accepted AJAX answer assigns: the decoded fields, or failing that (and only for a
      non-empty body) whatever the regexes find. Every key is `prefix` followed by a field label. */
  function ReplyWrites(r: Response, prefix: string): (w: seq<Write>)
    ensures forall i :: 0 <= i < |w| ==> w[i].0 in FieldKeys(prefix)
    ensures r.json.SummaryPair? ==> w == FieldWrites(r.json.info, prefix)
    ensures r.json.OtherJson? && r.text == "" ==> w == []
    ensures r.json.OtherJson? && r.text != "" ==> w == TextWrites(r.text, prefix)
  {
    match r.json
    case SummaryPair(info) =>
      var w := FieldWrites(info, prefix);
      assert forall i :: 0 <= i < |w| ==> w[i].0 == FieldKeys(prefix)[i];
      w
    case OtherJson => if r.text != "" then TextWrites(r.text, prefix) else []
  }

  /** The regex fallback files each field the scanners find under its key and leaves the others
      alone; the order of the assignments does not matter, as the five keys differ. */
  lemma TextFallbackFiles(m: Entries, txt: string, prefix: string)
    ensures forall i :: 0 <= i < |FieldLabels| ==>
              Get(PutAll(m, TextWrites(txt, prefix)), prefix + FieldLabels[i]) ==
                (if ScannedValue(txt, i).Some? then ScannedValue(txt, i) else Get(m, prefix + FieldLabels[i]))
  {
    var w := TextWrites(txt, prefix);
    TextWritesDistinct(txt, prefix);
    PutAllDistinctKeys(m, w);
    forall i | 0 <= i < |FieldLabels|
      ensures Get(PutAll(m, w), prefix + FieldLabels[i]) ==
                (if ScannedValue(txt, i).Some? then ScannedValue(txt, i) else Get(m, prefix + FieldLabels[i]))
    {
      var k := [3, 2, 0, 1, 4][i];
      assert TextOrder[k] == i;
      assert w[k] == (prefix + FieldLabels[i], ScannedValue(txt, i));
    }
  }

  /** The summary answer also names the semester, under "Semester". */
  function SummaryWrites(r: Response): seq<Write> {
    match r.json
    case SummaryPair(info) => [("Semester", NamedSemester(info))] + FieldWrites(info, "")
    case OtherJson => ReplyWrites(r, "")
  }

  function SummaryRequest(cfg: Config, doc: Document, referer: string): Request {
    Xhr(PointsUrl(cfg), "0", SummaryName(doc), TokenInputValue(cfg, doc), referer)
  }

  /** The AJAX summary, sent only when the badges are incomplete. Its transport errors propagate;
      an HTTP error status is ignored. An accepted answer overwrites what the badges gave. */
  function SummaryStage(cfg: Config, doc: Document, referer: string, m: Entries, server: Server, trace: seq<Request>): (a: Attempt<Entries>)
    ensures !NeedAjax(doc) ==> a == Attempt(Done(m), trace)
    ensures NeedAjax(doc) ==> a.trace == trace + [SummaryRequest(cfg, doc, referer)]
    ensures a.outcome.Raised? <==> NeedAjax(doc) && server(a.trace).TransportError?
    ensures a.outcome.Raised? ==> a.outcome.failure == TransportFailure
    ensures a.outcome.Done? && NeedAjax(doc) ==>
              a.outcome.value == (if IsHttpError(Answer(server, a.trace).status) then m
                                  else PutAll(m, SummaryWrites(Answer(server, a.trace))))
    ensures a.outcome.Done? ==> (Distinct(m) ==> Distinct(a.outcome.value))
    ensures a.outcome.Done? ==> forall k :: HasKey(m, k) ==> HasKey(a.outcome.value, k)
  {
    if !NeedAjax(doc) then Attempt(Done(m), trace)
    else
      var sent := trace + [SummaryRequest(cfg, doc, referer)];
      match server(sent)
      case TransportError => Attempt(Raised(TransportFailure), sent)
      case Answered(r) =>
        Attempt(Done(if IsHttpError(r.status) then m else PutAll(m, SummaryWrites(r))), sent)
  }

  /** An accepted summary in the expected shape overwrites whatever the badges filed: each
      field that is not null replaces its key's value, and the semester name replaces
      "Semester" only when truthy. Keys the answer leaves out keep their values. */
  lemma {:induction false} SummaryOverwrites(m: Entries, r: Response, info: Summary)
    requires r.json == SummaryPair(info)
    ensures var res := PutAll(m, SummaryWrites(r));
            && Get(res, "Semester") == (if NamedSemester(info).Some? then NamedSemester(info) else Get(m, "Semester"))
            && forall i :: 0 <= i < |FieldLabels| ==>
                 Get(res, FieldLabels[i]) ==
                   (if FieldValue(info, i).Some? then Some(FieldValue(info, i).value.str) else Get(m, FieldLabels[i]))
  {
    var w := SummaryWrites(r);
    SummaryWritesShape(r, info);
    PutAllDistinctKeys(m, w);
    forall i | 0 <= i < |FieldLabels|
      ensures Get(PutAll(m, w), FieldLabels[i]) ==
                (if FieldValue(info, i).Some? then Some(FieldValue(info, i).value.str) else Get(m, FieldLabels[i]))
    {
      assert w[i + 1] == (FieldLabels[i], ScalarText(FieldValue(info, i)));
    }
  }

  /** The summary writes: "Semester" first, then the five fields, all under different keys. */
  lemma SummaryWritesShape(r: Response, info: Summary)
    requires r.json == SummaryPair(info)
    ensures var w := SummaryWrites(r);
            && |w| == 1 + |FieldLabels|
            && w[0] == ("Semester", NamedSemester(info))
            && (forall i :: 0 <= i < |FieldLabels| ==> w[i + 1] == (FieldLabels[i], ScalarText(FieldValue(info, i))))
            && (forall i, j :: 0 <= i < j < |w| ==> w[i].0 != w[j].0)
  {
    var fw := FieldWrites(info, "");
    var w := [("Semester", NamedSemester(info))] + fw;
    assert SummaryWrites(r) == w;
    forall i | 0 <= i < |FieldLabels| ensures w[i + 1] == (FieldLabels[i], ScalarText(FieldValue(info, i))) {
      assert w[i + 1] == fw[i];
      assert "" + FieldLabels[i] == FieldLabels[i];
    }
    PageKeysDistinct();
    forall i | 0 <= i < |w| ensures w[i].0 == BadgeKeys[i] {
      if i > 0 {
        assert w[i].0 == FieldLabels[i - 1];
      }
    }
    KeysOfSummary(w);
  }

  /** Six writes filed under the badge keys go to six different keys. */
  lemma KeysOfSummary(w: seq<Write>)
    requires |w| == |BadgeKeys|
    requires forall i :: 0 <= i < |w| ==> w[i].0 == BadgeKeys[i]
    ensures forall i, j :: 0 <= i < j < |w| ==> w[i].0 != w[j].0
  {
    PageKeysDistinct();
    assert forall i :: 0 <= i < |BadgeKeys| ==> BadgeKeys[i] == (BadgeKeys + ProfileKeys)[i];
  }

  // ---------------------------------------------------------------------------------------
  // Structural fallbacks

  function RowWrite(row: Row): Write {
    if row.header.Some? && row.cell.Some? then (row.header.value, row.cell) else ("", None)
  }

  /** The rows of the "points" table that carry both a header and a cell. */
  predicate HasKeyValueRow(doc: Document) {
    doc.pointsTable.Some? &&
    exists i :: 0 <= i < |doc.pointsTable.value| && RowWrite(doc.pointsTable.value[i]).1.Some?
  }

  /** The assignments the table loop makes, one per row. */
  function TableWrites(rows: seq<Row>): (w: seq<Write>)
    ensures |w| == |rows|
    ensures forall i :: 0 <= i < |rows| ==> w[i] == RowWrite(rows[i])
  {
    seq(|rows|, i requires 0 <= i < |rows| => RowWrite(rows[i]))
  }

  /** The "points" table read as key/value rows: each header of a row with both a header and a
      cell is a key, holding the cell of the last such row with that header. */
  function TableEntries(doc: Document): (t: Entries)
    ensures Distinct(t)
    ensures |t| > 0 <==> HasKeyValueRow(doc)
    ensures doc.pointsTable.None? ==> t == []
    ensures doc.pointsTable.Some? ==>
              var w := TableWrites(doc.pointsTable.value);
              && (forall k :: HasKey(t, k) <==> Written(w, k))
              && (forall i :: 0 <= i < |w| && LastWrite(w, i) ==> Get(t, w[i].0) == w[i].1)
  {
    match doc.pointsTable
    case None => []
    case Some(rows) =>
      var w := TableWrites(rows);
      var t := PutAll([], w);
      assert |t| > 0 <==> HasKeyValueRow(doc) by {
        EmptyIffNoKeys(t);
        if HasKeyValueRow(doc) {
          var i :| 0 <= i < |rows| && RowWrite(rows[i]).1.Some?;
          assert HasKey(t, w[i].0);
        } else {
          assert forall k :: !Written(w, k);
        }
      }
      t
  }

  /** The three fallbacks, tried in turn only while the result is still empty: the "points"
      table, the `totalPoints` element (filed even when its text is empty), and a
      "Total Points: n" / "Points: n" pattern in the visible text. */
  function Fallbacks(m: Entries, doc: Document): (r: Entries)
    ensures |m| > 0 ==> r == m
    ensures Distinct(m) ==> Distinct(r)
    ensures |m| == 0 && HasKeyValueRow(doc) ==> r == TableEntries(doc)
    ensures |m| == 0 && !HasKeyValueRow(doc) && "totalPoints" in doc.ids ==>
              r == [("Total Points", doc.ids["totalPoints"])]
    ensures |m| == 0 && !HasKeyValueRow(doc) && "totalPoints" !in doc.ids && FindTotalPoints(doc.visibleText).Some? ==>
              r == [("Total Points", FindTotalPoints(doc.visibleText).value)]
    ensures |r| == 0 <==>
              |m| == 0 && !HasKeyValueRow(doc) && "totalPoints" !in doc.ids && FindTotalPoints(doc.visibleText).None?
  {
    if |m| > 0 then m
    else if HasKeyValueRow(doc) then TableEntries(doc)
    else if "totalPoints" in doc.ids then [("Total Points", doc.ids["totalPoints"])]
    else
      match FindTotalPoints(doc.visibleText)
      case Some(n) => [("Total Points", n)]
      case None => []
  }

  // ---------------------------------------------------------------------------------------
  // The per-semester sweep

  /** One request of the sweep: the parameters sent, and the label its fields are filed under
      when the answer does not name its semester. */
  datatype Probe = Probe(semesterVal: string, semesterName: string, display: string)

  function SemesterLabel(n: nat): string {
    "semester_" + NatToDecimal(n)
  }

  /** One probe per selector option: its text (or a positional label) and its `value`
      attribute (or its position). */
  function OptionPlan(opts: seq<SelectOption>): (p: seq<Probe>)
    ensures |p| == |opts|
    ensures forall i :: 0 <= i < |p| ==>
              && p[i].semesterVal == opts[i].value.GetOr(NatToDecimal(i))
              && p[i].semesterName == p[i].display != ""
              && (opts[i].text != "" ==> p[i].display == opts[i].text)
              && (opts[i].text == "" ==> p[i].display == SemesterLabel(i))
  {
    seq(|opts|, i requires 0 <= i < |opts| =>
      var name := if opts[i].text != "" then opts[i].text else SemesterLabel(i);
      Probe(opts[i].value.GetOr(NatToDecimal(i)), name, name))
  }

  /** Without selector options: semester values 0 to 10, each tried first with an empty name and
      then with `name`, 22 probes in all. */
  function ProbePlan(name: string): (p: seq<Probe>)
    ensures |p| == 22
    ensures forall v :: 0 <= v <= 10 ==>
              && p[2 * v] == Probe(NatToDecimal(v), "", SemesterLabel(v))
              && p[2 * v + 1] == Probe(NatToDecimal(v), name, if name != "" then name else SemesterLabel(v))
  {
    var p := seq(22, k requires 0 <= k < 22 =>
      var n := if k % 2 == 0 then "" else name;
      Probe(NatToDecimal(k / 2), n, if n != "" then n else SemesterLabel(k / 2)));
    assert forall v :: 0 <= v <= 10 ==> (2 * v) / 2 == v && (2 * v + 1) / 2 == v && (2 * v + 1) % 2 == 1;
    p
  }

  /** Different semesters get different positional labels. */
  lemma SemesterLabelDistinct(v: nat, w: nat)
    ensures v != w ==> SemesterLabel(v) != SemesterLabel(w)
  {
    assert SemesterLabel(v)[9..] == NatToDecimal(v);
    assert SemesterLabel(w)[9..] == NatToDecimal(w);
    DecimalDistinct(v, w);
  }

  /** The eleven semester values of the probe plan are all different, and so are the positional
      labels their unnamed probes are filed under. */
  lemma ProbePlanDistinct(name: string)
    ensures var p := ProbePlan(name);
            forall v, w :: 0 <= v <= 10 && 0 <= w <= 10 && v != w ==>
              p[2 * v].semesterVal != p[2 * w].semesterVal && p[2 * v].display != p[2 * w].display
  {
    var p := ProbePlan(name);
    forall v, w | 0 <= v <= 10 && 0 <= w <= 10 && v != w
      ensures p[2 * v].semesterVal != p[2 * w].semesterVal && p[2 * v].display != p[2 * w].display
    {
      assert p[2 * v] == Probe(NatToDecimal(v), "", SemesterLabel(v));
      assert p[2 * w] == Probe(NatToDecimal(w), "", SemesterLabel(w));
      DecimalDistinct(v, w);
      SemesterLabelDistinct(v, w);
    }
  }

  /** A key the sweep files: a semester label, " - ", and a field label. */
  predicate IsSemesterKey(k: string) {
    exists j :: 0 <= j < |FieldLabels| && EndsWith(k, " - " + FieldLabels[j])
  }

  function SweepRequest(cfg: Config, p: Probe, token: Option<string>, referer: string): Request {
    Xhr(PointsUrl(cfg), p.semesterVal, p.semesterName, token, referer)
  }

  /** The label an answer's fields are filed under: its own truthy semester name, or else the probe's. */
  function SweepDisplay(r: Response, fallback: string): string {
    match r.json
    case SummaryPair(info) => NamedSemester(info).GetOr(fallback)
    case OtherJson => fallback
  }

  /** Every key an answer can be filed under is a semester key. */
  lemma ReplyKeysAreSemesterKeys(resp: Response, display: string)
    ensures var w := ReplyWrites(resp, display + " - ");
            forall i :: 0 <= i < |w| ==> IsSemesterKey(w[i].0)
  {
    var prefix := display + " - ";
    var w := ReplyWrites(resp, prefix);
    forall i | 0 <= i < |w| ensures IsSemesterKey(w[i].0) {
      var j :| 0 <= j < |FieldLabels| && w[i].0 == FieldKeys(prefix)[j];
      EndsWithConcat(display, " - ", FieldLabels[j]);
    }
  }

  /** What one probe adds: nothing after a transport error or an HTTP error status (both are
      swallowed), otherwise the answer's fields under "<semester> - <field>". */
  function SweepStep(m: Entries, reply: Reply, p: Probe): (r: Entries)
    ensures reply.TransportError? || IsHttpError(reply.response.status) ==> r == m
    ensures Distinct(m) ==> Distinct(r)
    ensures forall k :: HasKey(m, k) ==> HasKey(r, k)
    ensures forall k :: HasKey(r, k) && !HasKey(m, k) ==> IsSemesterKey(k)
    ensures forall k :: !IsSemesterKey(k) ==> Get(r, k) == Get(m, k)
    ensures reply.Answered? && !IsHttpError(reply.response.status) ==>
              forall k :: k !in FieldKeys(SweepDisplay(reply.response, p.display) + " - ") ==> Get(r, k) == Get(m, k)
  {
    match reply
    case TransportError => m
    case Answered(resp) =>
      if IsHttpError(resp.status) then m
      else
        var display := SweepDisplay(resp, p.display);
        var w := ReplyWrites(resp, display + " - ");
        ReplyKeysAreSemesterKeys(resp, display);
        assert forall k :: k !in FieldKeys(display + " - ") ==> !Written(w, k);
        PutAll(m, w)
  }

  /** An accepted answer of the expected shape files each non-null field under
      "<semester> - <field>", the semester being the answer's own truthy name or else the probe's. */
  lemma {:induction false} SweepStepFiles(m: Entries, resp: Response, p: Probe, info: Summary, i: nat)
    requires !IsHttpError(resp.status) && resp.json == SummaryPair(info)
    requires i < |FieldLabels| && FieldValue(info, i).Some?
    ensures Get(SweepStep(m, Answered(resp), p), NamedSemester(info).GetOr(p.display) + " - " + FieldLabels[i])
              == Some(FieldValue(info, i).value.str)
  {
    var prefix := NamedSemester(info).GetOr(p.display) + " - ";
    var w := FieldWrites(info, prefix);
    assert ReplyWrites(resp, prefix) == w;
    FieldKeysDistinct(prefix);
    PutAllDistinctKeys(m, w);
    assert w[i].0 == prefix + FieldLabels[i];
    assert prefix + FieldLabels[i] == NamedSemester(info).GetOr(p.display) + " - " + FieldLabels[i];
  }

  /** An accepted answer that is not the JSON pair but has a body is scanned as text: each field
      the scan finds is filed under "<probe's label> - <field>", and every other field key of that
      label keeps what it had. */
  lemma SweepStepTextFiles(m: Entries, resp: Response, p: Probe)
    requires !IsHttpError(resp.status) && resp.json.OtherJson? && resp.text != ""
    ensures forall i :: 0 <= i < |FieldLabels| ==>
              Get(SweepStep(m, Answered(resp), p), p.display + " - " + FieldLabels[i]) ==
                (if ScannedValue(resp.text, i).Some? then ScannedValue(resp.text, i)
                 else Get(m, p.display + " - " + FieldLabels[i]))
  {
    var prefix := p.display + " - ";
    assert SweepStep(m, Answered(resp), p) == PutAll(m, TextWrites(resp.text, prefix));
    TextFallbackFiles(m, resp.text, prefix);
    forall i | 0 <= i < |FieldLabels|
      ensures p.display + " - " + FieldLabels[i] == prefix + FieldLabels[i]
    {
    }
  }

  /** The sweep: one request per probe, in order, whatever the answers; it never raises, never
      drops a key and only adds semester keys. */
  function Sweep(cfg: Config, plan: seq<Probe>, token: Option<string>, referer: string,
                 m: Entries, server: Server, trace: seq<Request>): (res: (Entries, seq<Request>))
    decreases |plan|
    ensures |res.1| == |trace| + |plan| && res.1[..|trace|] == trace
    ensures forall i :: 0 <= i < |plan| ==> res.1[|trace| + i] == SweepRequest(cfg, plan[i], token, referer)
    ensures Distinct(m) ==> Distinct(res.0)
    ensures forall k :: HasKey(m, k) ==> HasKey(res.0, k)
    ensures forall k :: HasKey(res.0, k) && !HasKey(m, k) ==> IsSemesterKey(k)
    ensures forall k :: !IsSemesterKey(k) ==> Get(res.0, k) == Get(m, k)
    ensures |plan| == 0 ==> res == (m, trace)
  {
    if |plan| == 0 then (m, trace)
    else
      var sent := trace + [SweepRequest(cfg, plan[0], token, referer)];
      var res := Sweep(cfg, plan[1..], token, referer, SweepStep(m, server(sent), plan[0]), server, sent);
      assert res.1[..|trace|] == res.1[..|sent|][..|trace|];
      forall i | 0 <= i < |plan| ensures res.1[|trace| + i] == SweepRequest(cfg, plan[i], token, referer) {
        if i == 0 {
          assert res.1[|trace|] == res.1[..|sent|][|trace|];
        } else {
          assert plan[1..][i - 1] == plan[i];
        }
      }
      res
  }

  /** One probe of the sweep: the first probe's request is sent, its answer is filed, and the
      remaining probes continue from there. */
  lemma SweepUnfold(cfg: Config, plan: seq<Probe>, token: Option<string>, referer: string,
                    m: Entries, server: Server, trace: seq<Request>)
    requires |plan| > 0
    ensures var sent := trace + [SweepRequest(cfg, plan[0], token, referer)];
            Sweep(cfg, plan, token, referer, m, server, trace)
              == Sweep(cfg, plan[1..], token, referer, SweepStep(m, server(sent), plan[0]), server, sent)
  {
  }

  /** The sweep read as the client's loop: after the probes of `plan`, one more probe sends its
      request and files its answer on top of what the earlier probes left. */
  lemma {:induction false} SweepSnoc(cfg: Config, plan: seq<Probe>, p: Probe, token: Option<string>, referer: string,
                                     m: Entries, server: Server, trace: seq<Request>)
    decreases |plan|
    ensures var before := Sweep(cfg, plan, token, referer, m, server, trace);
            var sent := before.1 + [SweepRequest(cfg, p, token, referer)];
            Sweep(cfg, plan + [p], token, referer, m, server, trace) == (SweepStep(before.0, server(sent), p), sent)
  {
    if |plan| == 0 {
      assert plan + [p] == [p];
    } else {
      var sent := trace + [SweepRequest(cfg, plan[0], token, referer)];
      var m' := SweepStep(m, server(sent), plan[0]);
      assert (plan + [p])[0] == plan[0];
      assert (plan + [p])[1..] == plan[1..] + [p];
      SweepSnoc(cfg, plan[1..], p, token, referer, m', server, sent);
    }
  }

  /** The last probe's accepted answer ends up in the result: each of its non-null fields is
      filed under "<semester> - <field>". */
  lemma SweepFilesLast(cfg: Config, plan: seq<Probe>, p: Probe, token: Option<string>, referer: string,
                       m: Entries, server: Server, trace: seq<Request>, info: Summary, i: nat)
    requires var before := Sweep(cfg, plan, token, referer, m, server, trace);
             var reply := server(before.1 + [SweepRequest(cfg, p, token, referer)]);
             && reply.Answered? && !IsHttpError(reply.response.status) && reply.response.json == SummaryPair(info)
    requires i < |FieldLabels| && FieldValue(info, i).Some?
    ensures Get(Sweep(cfg, plan + [p], token, referer, m, server, trace).0,
                NamedSemester(info).GetOr(p.display) + " - " + FieldLabels[i])
              == Some(FieldValue(info, i).value.str)
  {
    var before := Sweep(cfg, plan, token, referer, m, server, trace);
    var reply := server(before.1 + [SweepRequest(cfg, p, token, referer)]);
    SweepSnoc(cfg, plan, p, token, referer, m, server, trace);
    SweepStepFiles(before.0, reply.response, p, info, i);
  }

  /** The last probe's accepted text answer ends up in the result: each field the scan finds is
      filed under "<probe's label> - <field>", and the other field keys of that label keep what the
      earlier probes left. */
  lemma SweepTextFilesLast(cfg: Config, plan: seq<Probe>, p: Probe, token: Option<string>, referer: string,
                           m: Entries, server: Server, trace: seq<Request>, txt: string, i: nat)
    requires var before := Sweep(cfg, plan, token, referer, m, server, trace);
             var reply := server(before.1 + [SweepRequest(cfg, p, token, referer)]);
             && reply.Answered? && !IsHttpError(reply.response.status)
             && reply.response.json.OtherJson? && reply.response.text == txt
    requires txt != "" && i < |FieldLabels|
    ensures var before := Sweep(cfg, plan, token, referer, m, server, trace);
            Get(Sweep(cfg, plan + [p], token, referer, m, server, trace).0, p.display + " - " + FieldLabels[i]) ==
              (if ScannedValue(txt, i).Some? then ScannedValue(txt, i)
               else Get(before.0, p.display + " - " + FieldLabels[i]))
  {
    var before := Sweep(cfg, plan, token, referer, m, server, trace);
    var reply := server(before.1 + [SweepRequest(cfg, p, token, referer)]);
    SweepSnoc(cfg, plan, p, token, referer, m, server, trace);
    SweepStepTextFiles(before.0, reply.response, p);
  }

  /** The last probe's accepted answer changes no key outside the field keys of the label it is
      filed under: in particular an answer filed under one semester leaves the keys of every other
      semester as the earlier probes left them. */
  lemma SweepLastFrame(cfg: Config, plan: seq<Probe>, p: Probe, token: Option<string>, referer: string,
                       m: Entries, server: Server, trace: seq<Request>, k: string)
    requires var before := Sweep(cfg, plan, token, referer, m, server, trace);
             var reply := server(before.1 + [SweepRequest(cfg, p, token, referer)]);
             && reply.Answered? && !IsHttpError(reply.response.status)
             && k !in FieldKeys(SweepDisplay(reply.response, p.display) + " - ")
    ensures var before := Sweep(cfg, plan, token, referer, m, server, trace);
            Get(Sweep(cfg, plan + [p], token, referer, m, server, trace).0, k) == Get(before.0, k)
  {
    SweepSnoc(cfg, plan, p, token, referer, m, server, trace);
  }

  /** The sweep that runs: over the selector's options when it has any, otherwise the 22 probes
      named after the name badge. */
  function SweepPlan(doc: Document): (r: seq<Probe>)
    ensures doc.semesterSelect.Some? && |doc.semesterSelect.value| > 0 ==>
              r == OptionPlan(doc.semesterSelect.value) && |r| == |doc.semesterSelect.value|
    ensures !(doc.semesterSelect.Some? && |doc.semesterSelect.value| > 0) ==>
              r == ProbePlan(TextById(doc, "current_semester_name").GetOr("")) && |r| == 22
  {
    match doc.semesterSelect
    case Some(opts) =>
      if |opts| > 0 then OptionPlan(opts)
      else ProbePlan(TextById(doc, "current_semester_name").GetOr(""))
    case None => ProbePlan(TextById(doc, "current_semester_name").GetOr(""))
  }

  // ---------------------------------------------------------------------------------------
  // `fetch_points`

  /** After the summary stage: the structural fallbacks, then the sweep, then the rule that an
      empty result is an error. */
  function Finish(cfg: Config, page: Located, m1: Entries, server: Server, trace: seq<Request>): (a: Attempt<Entries>)
    ensures var doc := page.response.page;
            var res := Sweep(cfg, SweepPlan(doc), TokenInputValue(cfg, doc), page.url, Fallbacks(m1, doc), server, trace);
            && a.trace == res.1
            && a.outcome == (if |res.0| > 0 then Done(res.0) else Raised(SelectorDrift))
    ensures |trace| <= |a.trace| && a.trace[..|trace|] == trace
    ensures a.outcome.Raised? ==>
              |m1| == 0 && !HasKeyValueRow(page.response.page) && "totalPoints" !in page.response.page.ids
              && FindTotalPoints(page.response.page.visibleText).None?
    ensures a.outcome.Done? ==> (Distinct(m1) ==> Distinct(a.outcome.value))
    ensures a.outcome.Done? ==> forall k :: HasKey(m1, k) ==> HasKey(a.outcome.value, k)
    ensures a.outcome.Done? ==> forall k :: !IsSemesterKey(k) ==>
              Get(a.outcome.value, k) == Get(Fallbacks(m1, page.response.page), k)
  {
    var doc := page.response.page;
    var m2 := Fallbacks(m1, doc);
    var res := Sweep(cfg, SweepPlan(doc), TokenInputValue(cfg, doc), page.url, m2, server, trace);
    if |res.0| == 0 then
      EmptyBelow(m2, res.0);
      Attempt(Raised(SelectorDrift), res.1)
    else
      assert forall k :: HasKey(m1, k) ==> HasKey(m2, k) by {
        EmptyBelow(m1, m2);
      }
      Attempt(Done(res.0), res.1)
  }

  /** Everything after the page is located. The result is never empty: an empty one raises the
      selector-drift error, which can only happen when the page shows nothing and every fallback
      failed. */
  function Extract(cfg: Config, page: Located, server: Server, trace: seq<Request>): (a: Attempt<Entries>)
    ensures |trace| <= |a.trace| && a.trace[..|trace|] == trace
    ensures a.outcome.Done? ==> |a.outcome.value| > 0 && Distinct(a.outcome.value)
    ensures a.outcome.Raised? ==> a.outcome.failure == TransportFailure || a.outcome.failure == SelectorDrift
    ensures a.outcome.Raised? && a.outcome.failure == SelectorDrift ==>
              && PageIsBlank(page.response.page)
              && !HasKeyValueRow(page.response.page)
              && "totalPoints" !in page.response.page.ids
              && FindTotalPoints(page.response.page.visibleText).None?
    ensures a.outcome.Done? ==>
              forall k :: HasKey(PageEntries(page.response.page), k) ==> HasKey(a.outcome.value, k)
    ensures a.outcome.Done? ==>
              var s := SummaryStage(cfg, page.response.page, page.url, PageEntries(page.response.page), server, trace);
              && s.outcome.Done?
              && forall k :: !IsSemesterKey(k) ==>
                   Get(a.outcome.value, k) == Get(Fallbacks(s.outcome.value, page.response.page), k)
    ensures var s := SummaryStage(cfg, page.response.page, page.url, PageEntries(page.response.page), server, trace);
            s.outcome.Raised? ==> a == Attempt(Raised(s.outcome.failure), s.trace)
    ensures var doc := page.response.page;
            var s := SummaryStage(cfg, doc, page.url, PageEntries(doc), server, trace);
            s.outcome.Done? ==>
              var res := Sweep(cfg, SweepPlan(doc), TokenInputValue(cfg, doc), page.url, Fallbacks(s.outcome.value, doc), server, s.trace);
              && a.trace == res.1
              && a.outcome == (if |res.0| > 0 then Done(res.0) else Raised(SelectorDrift))
  {
    var doc := page.response.page;
    var m0 := PageEntries(doc);
    var s := SummaryStage(cfg, doc, page.url, m0, server, trace);
    match s.outcome
    case Raised(f) =>
      assert s.trace[..|trace|] == trace;
      Attempt(Raised(f), s.trace)
    case Done(m1) =>
      assert s.trace[..|trace|] == trace;
      var a := Finish(cfg, page, m1, server, s.trace);
      assert a.trace[..|trace|] == trace by {
        assert a.trace[..|trace|] == a.trace[..|s.trace|][..|trace|];
      }
      assert a.outcome.Raised? ==> PageIsBlank(doc) by {
        if a.outcome.Raised? {
          EmptyBelow(m0, m1);
          PageEntriesEmpty(doc);
        }
      }
      a
  }

  /** `fetch_points()`: refused before a successful login; otherwise the page is located and
      read. */
  function FetchPoints(cfg: Config, client: Client, server: Server, trace: seq<Request>): (a: Attempt<Entries>)
    ensures !client.loggedIn ==> a == Attempt(Raised(NotLoggedIn), trace)
    ensures client.loggedIn ==> |trace| < |a.trace| && a.trace[..|trace| + 1] == trace + [Fetch(PointsUrl(cfg))]
    ensures a.outcome.Done? ==> |a.outcome.value| > 0 && Distinct(a.outcome.value)
    ensures a.outcome.Raised? && client.loggedIn ==>
              a.outcome.failure == TransportFailure || a.outcome.failure.HttpError? || a.outcome.failure == SelectorDrift
    ensures client.loggedIn ==>
              var loc := LocatePage(cfg, client, server, trace);
              && (loc.outcome.Raised? ==> a == Attempt(Raised(loc.outcome.failure), loc.trace))
              && (loc.outcome.Done? ==> a == Extract(cfg, loc.outcome.value, server, loc.trace))
    ensures a.outcome.Done? ==>
              var loc := LocatePage(cfg, client, server, trace);
              && loc.outcome.Done?
              && forall k :: HasKey(PageEntries(loc.outcome.value.response.page), k) ==> HasKey(a.outcome.value, k)
  {
    if !client.loggedIn then Attempt(Raised(NotLoggedIn), trace)
    else
      var loc := LocatePage(cfg, client, server, trace);
      match loc.outcome
      case Raised(f) => Attempt(Raised(f), loc.trace)
      case Done(page) =>
        var a := Extract(cfg, page, server, loc.trace);
        assert a.trace[..|trace| + 1] == a.trace[..|loc.trace|][..|trace| + 1];
        a
  }
}

=== FILE: portal.dfy ===
/** The login half of the portal client: URL building, the anti-forgery token, the choice of
    login form, the submitted payload and the classification of the portal's answer. */
module Portal {
  import opened Base
  import opened Text
  import opened Dict
  import opened Web

  /** The portal settings the client uses (its TLS options are not modelled). An empty
      `csrfField` stands for a missing one: the client only ever tests it for truthiness. */
  datatype Config = Config(
    baseUrl: string,
    loginPath: string,
    pointsPath: string,
    usernameField: string,
    passwordField: string,
    csrfField: string)

  predicate IsAbsolute(path: string) {
    StartsWith(path, "http://") || StartsWith(path, "https://")
  }

  /** `head` is `base` with every trailing "/" removed. */
  predicate IsTrimmedBase(head: string, base: string) {
    && |head| <= |base| && head == base[..|head|]
    && (forall i :: |head| <= i < |base| ==> base[i] == '/')
    && (|head| > 0 ==> head[|head| - 1] != '/')
  }

  /** `_url`: absolute URLs pass through; anything else is appended to the base URL with its
      trailing slashes removed. This is plain concatenation, not reference resolution: no "/" is
      inserted and no "." or ".." segment is interpreted. */
  function Url(base: string, path: string): (r: string)
    ensures IsAbsolute(path) ==> r == path
    ensures !IsAbsolute(path) ==> EndsWith(r, path) && IsTrimmedBase(r[..|r| - |path|], base)
  {
    if IsAbsolute(path) then path
    else
      var head := TrimTrailingSlashes(base);
      assert (head + path)[..|head|] == head;
      head + path
  }

  /** The join does not depend on how many slashes end the base URL. */
  lemma UrlIgnoresTrailingSlash(base: string, path: string)
    ensures Url(base + "/", path) == Url(base, path)
  {
    assert (base + "/")[..|base|] == base;
  }

  function LoginUrl(cfg: Config): string {
    Url(cfg.baseUrl, cfg.loginPath)
  }

  function PointsUrl(cfg: Config): string {
    Url(cfg.baseUrl, cfg.pointsPath)
  }

  /** An optional attribute with a non-empty value (Python truthiness of `tag.get(attr)`). */
  predicate Truthy(o: Option<string>) {
    o.Some? && o.value != ""
  }

  /** The `if x:` guard in front of a use of an optional text. */
  function IfTruthy(o: Option<string>): (r: Option<string>)
    ensures r.Some? <==> Truthy(o)
    ensures r.Some? ==> r == o
  {
    if Truthy(o) then o else None
  }

  /** `soup.find("input", {"name": name})`: the first input whose name is exactly `name`. */
  function FirstNamed(inputs: seq<Input>, name: string): (r: Option<nat>)
    ensures r.Some? ==> r.value < |inputs| && inputs[r.value].name == Some(name)
    ensures r.Some? ==> forall j :: 0 <= j < r.value ==> inputs[j].name != Some(name)
    ensures r.None? <==> forall j :: 0 <= j < |inputs| ==> inputs[j].name != Some(name)
  {
    var named := (inp: Input) => inp.name == Some(name);
    assert forall inp :: named(inp) == (inp.name == Some(name));
    FirstWhere(inputs, named)
  }

  /** A `<meta>` whose name matches /csrf/i. */
  predicate IsCsrfMeta(m: Meta) {
    m.name.Some? && Contains(LowerStr(m.name.value), "csrf")
  }

  /** `soup.find("meta", {"name": re.compile("csrf", re.I)})` */
  function FirstCsrfMeta(metas: seq<Meta>): (r: Option<nat>)
    ensures r.Some? ==> r.value < |metas| && IsCsrfMeta(metas[r.value])
    ensures r.Some? ==> forall j :: 0 <= j < r.value ==> !IsCsrfMeta(metas[j])
    ensures r.None? <==> forall j :: 0 <= j < |metas| ==> !IsCsrfMeta(metas[j])
  {
    FirstWhere(metas, IsCsrfMeta)
  }

  /** The value of the first input carrying the token's field name, when non-empty. Later
      inputs of that name are never consulted. */
  function TokenInputValue(cfg: Config, doc: Document): (r: Option<string>)
    ensures r.Some? ==> r.value != "" && cfg.csrfField != ""
    ensures cfg.csrfField == "" ==> r.None?
    ensures cfg.csrfField != "" ==>
              match FirstNamed(doc.inputs, cfg.csrfField)
              case None => r.None?
              case Some(i) => r == IfTruthy(doc.inputs[i].value)
  {
    if cfg.csrfField == "" then None
    else
      match FirstNamed(doc.inputs, cfg.csrfField)
      case Some(i) => IfTruthy(doc.inputs[i].value)
      case None => None
  }

  /** `get_csrf_token`: the token input's value; failing that, the content of the first meta tag
      named like "csrf"; failing that, nothing. Only the first candidate of each kind is looked at. */
  function CsrfToken(cfg: Config, doc: Document): (r: Option<string>)
    ensures r.Some? ==> r.value != "" && cfg.csrfField != ""
    ensures TokenInputValue(cfg, doc).Some? ==> r == TokenInputValue(cfg, doc)
    ensures r.Some? && TokenInputValue(cfg, doc).None? ==>
              var m := FirstCsrfMeta(doc.metas);
              m.Some? && doc.metas[m.value].content == r
    ensures r.None? ==>
              || cfg.csrfField == ""
              || (&& TokenInputValue(cfg, doc).None?
                  && (FirstCsrfMeta(doc.metas).None? || !Truthy(doc.metas[FirstCsrfMeta(doc.metas).value].content)))
  {
    if cfg.csrfField == "" then None
    else if TokenInputValue(cfg, doc).Some? then TokenInputValue(cfg, doc)
    else
      match FirstCsrfMeta(doc.metas)
      case Some(i) => if Truthy(doc.metas[i].content) then doc.metas[i].content else None
      case None => None
  }

  function ActionOf(f: Form): string {
    f.action.GetOr("")
  }

  predicate HasInput(f: Form, name: string) {
    exists i :: 0 <= i < |f.inputs| && f.inputs[i].name == Some(name)
  }

  /** The three tests of the form loop, any one of which picks the form. */
  predicate IsLoginForm(cfg: Config, f: Form) {
    || Contains(ActionOf(f), "/login")
    || (HasInput(f, cfg.usernameField) && HasInput(f, cfg.passwordField))
    || LowerStr(f.httpMethod.GetOr("")) == "post"
  }

  /** Index of the form the client submits: the first, in document order, that passes any one of
      the tests. The tests are not ranked: a POST form ahead of a "/login" form wins. */
  function ChooseForm(cfg: Config, forms: seq<Form>): (r: Option<nat>)
    ensures r.Some? ==> r.value < |forms| && IsLoginForm(cfg, forms[r.value])
    ensures r.Some? ==> forall j :: 0 <= j < r.value ==> !IsLoginForm(cfg, forms[j])
    ensures r.None? <==> forall j :: 0 <= j < |forms| ==> !IsLoginForm(cfg, forms[j])
  {
    var qualifies := (f: Form) => IsLoginForm(cfg, f);
    assert forall f :: qualifies(f) == IsLoginForm(cfg, f);
    FirstWhere(forms, qualifies)
  }

  /** The form the client submits: the first form of the document, in document order, that
      passes one of the tests, and none when no form passes. */
  function ChosenForm(cfg: Config, doc: Document): (r: Option<Form>)
    ensures r.Some? ==> exists i :: 0 <= i < |doc.forms| && r.value == doc.forms[i] && IsLoginForm(cfg, doc.forms[i])
                                    && forall j :: 0 <= j < i ==> !IsLoginForm(cfg, doc.forms[j])
    ensures r.None? <==> forall f :: f in doc.forms ==> !IsLoginForm(cfg, f)
  {
    match ChooseForm(cfg, doc.forms)
    case Some(i) => Some(doc.forms[i])
    case None => None
  }

  /** The payload before the form's own inputs are merged: the two credentials, then the token
      when there is one. A later assignment to the same field name wins. */
  function InitialPayload(cfg: Config, username: string, password: string, token: Option<string>): (p: Entries)
    ensures Distinct(p)
    ensures Truthy(token) && cfg.csrfField != "" ==> Get(p, cfg.csrfField) == token
    ensures !(Truthy(token) && cfg.csrfField == cfg.passwordField && cfg.csrfField != "") ==>
              Get(p, cfg.passwordField) == Some(password)
    ensures cfg.usernameField != cfg.passwordField &&
            !(Truthy(token) && cfg.csrfField == cfg.usernameField && cfg.csrfField != "") ==>
              Get(p, cfg.usernameField) == Some(username)
    ensures forall k :: HasKey(p, k) ==>
              k == cfg.usernameField || k == cfg.passwordField || (k == cfg.csrfField && Truthy(token))
  {
    var p := Put(Put([], cfg.usernameField, username), cfg.passwordField, password);
    if cfg.csrfField != "" && Truthy(token) then Put(p, cfg.csrfField, token.value) else p
  }

  /** The name an input contributes to the payload, if any (unnamed and empty-named inputs are
      skipped). */
  function NameOf(inp: Input): Option<string> {
    if Truthy(inp.name) then inp.name else None
  }

  /** Some input of `inputs` contributes the name `k`. */
  predicate NamedIn(inputs: seq<Input>, k: string) {
    exists i :: 0 <= i < |inputs| && NameOf(inputs[i]) == Some(k)
  }

  /** `inputs[j]` is the first input contributing its name. */
  predicate FirstOfItsName(inputs: seq<Input>, j: nat)
    requires j < |inputs|
  {
    NameOf(inputs[j]).Some? && forall i :: 0 <= i < j ==> NameOf(inputs[i]) != NameOf(inputs[j])
  }

  /** One step of the merge loop. */
  function MergeInput(p: Entries, inp: Input): Entries {
    match NameOf(inp)
    case None => p
    case Some(name) => if HasKey(p, name) then p else Put(p, name, inp.value.GetOr(""))
  }

  lemma GetOfPrefix(a: Entries, r: Entries, k: string)
    requires |a| <= |r| && r[..|a|] == a && HasKey(a, k)
    ensures Get(r, k) == Get(a, k)
  {
    assert r == a + r[|a|..];
    GetAppend(a, r[|a|..], k);
  }

  /** The merge loop over the chosen form's inputs: entries already in the payload stay exactly
      as they are; every other named input is added, in order, with its value or "" when it has
      none, and the first input of each name wins. */
  function MergeInputs(p: Entries, inputs: seq<Input>): (r: Entries)
    decreases |inputs|
    ensures |p| <= |r| && r[..|p|] == p
    ensures Distinct(p) ==> Distinct(r)
    ensures forall k :: HasKey(r, k) <==> HasKey(p, k) || NamedIn(inputs, k)
    ensures forall j :: 0 <= j < |inputs| && FirstOfItsName(inputs, j) && !HasKey(p, NameOf(inputs[j]).value) ==>
              Get(r, NameOf(inputs[j]).value) == Some(inputs[j].value.GetOr(""))
  {
    if |inputs| == 0 then p
    else
      var p' := MergeInput(p, inputs[0]);
      var rest := inputs[1..];
      var r := MergeInputs(p', rest);
      assert |p| <= |p'| && p'[..|p|] == p;
      assert r[..|p|] == p by {
        assert r[..|p|] == r[..|p'|][..|p|];
      }
      assert forall k :: HasKey(p', k) <==> HasKey(p, k) || NameOf(inputs[0]) == Some(k) by {
        forall k ensures HasKey(p', k) <==> HasKey(p, k) || NameOf(inputs[0]) == Some(k) {
          if NameOf(inputs[0]).Some? && !HasKey(p, NameOf(inputs[0]).value) {
            PutKeys(p, NameOf(inputs[0]).value, inputs[0].value.GetOr(""), k);
          }
        }
      }
      assert forall k :: NamedIn(inputs, k) <==> NameOf(inputs[0]) == Some(k) || NamedIn(rest, k) by {
        forall k ensures NamedIn(inputs, k) <==> NameOf(inputs[0]) == Some(k) || NamedIn(rest, k) {
          if NamedIn(rest, k) {
            var i :| 0 <= i < |rest| && NameOf(rest[i]) == Some(k);
            assert NameOf(inputs[i + 1]) == Some(k);
          }
          if NamedIn(inputs, k) && NameOf(inputs[0]) != Some(k) {
            var i :| 0 <= i < |inputs| && NameOf(inputs[i]) == Some(k);
            assert NameOf(rest[i - 1]) == Some(k);
          }
        }
      }
      forall j | 0 <= j < |inputs| && FirstOfItsName(inputs, j) && !HasKey(p, NameOf(inputs[j]).value)
        ensures Get(r, NameOf(inputs[j]).value) == Some(inputs[j].value.GetOr(""))
      {
        var name := NameOf(inputs[j]).value;
        if j == 0 {
          assert Get(p', name) == Some(inputs[0].value.GetOr(""));
          GetOfPrefix(p', r, name);
        } else {
          assert NameOf(inputs[0]) != Some(name);
          assert !HasKey(p', name);
          assert rest[j - 1] == inputs[j];
          assert FirstOfItsName(rest, j - 1) by {
            forall i | 0 <= i < j - 1 ensures NameOf(rest[i]) != NameOf(rest[j - 1]) {
              assert rest[i] == inputs[i + 1];
            }
          }
        }
      }
      r
  }

  /** The payload the client posts. */
  function LoginPayload(cfg: Config, username: string, password: string, token: Option<string>, form: Option<Form>): Entries {
    MergeInputs(InitialPayload(cfg, username, password, token), if form.Some? then form.value.inputs else [])
  }

  /** Every named input of the form whose name the client did not set itself is posted with the
      value of the first input of that name, or "" when that input has no value. */
  lemma LoginPayloadInputs(cfg: Config, username: string, password: string, token: Option<string>, form: Form)
    ensures var p := LoginPayload(cfg, username, password, token, Some(form));
            forall j :: 0 <= j < |form.inputs| && FirstOfItsName(form.inputs, j)
                        && NameOf(form.inputs[j]).value != cfg.usernameField && NameOf(form.inputs[j]).value != cfg.passwordField
                        && !(NameOf(form.inputs[j]).value == cfg.csrfField && Truthy(token)) ==>
              Get(p, NameOf(form.inputs[j]).value) == Some(form.inputs[j].value.GetOr(""))
  {
    var p0 := InitialPayload(cfg, username, password, token);
    forall j | 0 <= j < |form.inputs| && FirstOfItsName(form.inputs, j)
               && NameOf(form.inputs[j]).value != cfg.usernameField && NameOf(form.inputs[j]).value != cfg.passwordField
               && !(NameOf(form.inputs[j]).value == cfg.csrfField && Truthy(token))
      ensures !HasKey(p0, NameOf(form.inputs[j]).value)
    {
    }
  }

  /** Whatever the chosen form contains, the credentials and the token are submitted exactly as
      the client set them (when the configured field names are distinct), and each other field is
      one of the form's named inputs. */
  lemma {:induction false} PayloadKeepsCredentials(cfg: Config, username: string, password: string,
                                                  token: string, form: Option<Form>)
    requires cfg.usernameField != cfg.passwordField && cfg.csrfField != cfg.usernameField
    requires cfg.csrfField != cfg.passwordField && cfg.csrfField != "" && token != ""
    ensures var p := LoginPayload(cfg, username, password, Some(token), form);
            && Get(p, cfg.usernameField) == Some(username)
            && Get(p, cfg.passwordField) == Some(password)
            && Get(p, cfg.csrfField) == Some(token)
            && Distinct(p)
  {
    var p0 := InitialPayload(cfg, username, password, Some(token));
    var p := LoginPayload(cfg, username, password, Some(token), form);
    GetOfPrefix(p0, p, cfg.usernameField);
    GetOfPrefix(p0, p, cfg.passwordField);
    GetOfPrefix(p0, p, cfg.csrfField);
  }

  /** How the client resolves a form action or a discovered link: a target beginning with
      "http" is used verbatim, anything else goes through `_url`. The test is looser than
      `_url`'s own, so a relative target such as "httpauth/login" escapes the base URL. */
  function Resolve(base: string, target: string): (r: string)
    ensures r == Url(base, target) || r == target
    ensures IsAbsolute(target) || !StartsWith(target, "http") ==> r == Url(base, target)
  {
    if StartsWith(target, "http") then target else Url(base, target)
  }

  /** The two resolutions disagree exactly on relative targets beginning with "http", and
      only when the base URL is more than slashes. */
  lemma ResolveDiffersFromUrl(base: string, target: string)
    ensures Resolve(base, target) != Url(base, target) <==>
              StartsWith(target, "http") && !IsAbsolute(target) && TrimTrailingSlashes(base) != ""
  {
    if StartsWith(target, "http") && !IsAbsolute(target) {
      var head := TrimTrailingSlashes(base);
      assert Url(base, target) == head + target;
      if head != "" {
        assert |head + target| != |target|;
      }
    }
  }

  /** Where the credentials are posted: the chosen form's non-empty action, resolved, or else
      the login URL. */
  function PostUrl(cfg: Config, form: Option<Form>): (r: string)
    ensures form.None? || ActionOf(form.value) == "" ==> r == LoginUrl(cfg)
    ensures form.Some? && ActionOf(form.value) != "" ==>
              var act := ActionOf(form.value);
              && r == Resolve(cfg.baseUrl, act)
              && (StartsWith(act, "http") ==> r == act)
              && (!StartsWith(act, "http") ==> r == Url(cfg.baseUrl, act))
  {
    if form.Some? && ActionOf(form.value) != "" then Resolve(cfg.baseUrl, ActionOf(form.value))
    else LoginUrl(cfg)
  }

  /** The POST request built from the login page: sent to the chosen form's resolved action (or
      the login URL), with the login URL as Referer and the base URL as Origin. With distinct
      field names, the payload holds the credentials and the page's token exactly as the client
      set them, and its other fields are the named inputs of the chosen form. */
  function SubmitRequest(cfg: Config, page: Document, username: string, password: string): (q: Request)
    ensures q.PostForm? && q.referer == LoginUrl(cfg) && q.origin == cfg.baseUrl
    ensures q.url == PostUrl(cfg, ChosenForm(cfg, page))
    ensures Distinct(q.payload)
    ensures cfg.usernameField != cfg.passwordField && cfg.csrfField != cfg.usernameField
            && cfg.csrfField != cfg.passwordField ==>
              && Get(q.payload, cfg.usernameField) == Some(username)
              && Get(q.payload, cfg.passwordField) == Some(password)
              && (CsrfToken(cfg, page).Some? ==> Get(q.payload, cfg.csrfField) == CsrfToken(cfg, page))
    ensures forall k :: HasKey(q.payload, k) <==>
              || k == cfg.usernameField || k == cfg.passwordField
              || (k == cfg.csrfField && CsrfToken(cfg, page).Some?)
              || (ChosenForm(cfg, page).Some? && NamedIn(ChosenForm(cfg, page).value.inputs, k))
    ensures ChosenForm(cfg, page).Some? ==>
              var inputs := ChosenForm(cfg, page).value.inputs;
              forall j :: 0 <= j < |inputs| && FirstOfItsName(inputs, j)
                          && NameOf(inputs[j]).value != cfg.usernameField && NameOf(inputs[j]).value != cfg.passwordField
                          && !(NameOf(inputs[j]).value == cfg.csrfField && CsrfToken(cfg, page).Some?) ==>
                Get(q.payload, NameOf(inputs[j]).value) == Some(inputs[j].value.GetOr(""))
  {
    var form := ChosenForm(cfg, page);
    var token := CsrfToken(cfg, page);
    var p0 := InitialPayload(cfg, username, password, token);
    var p := LoginPayload(cfg, username, password, token, form);
    assert HasKey(p0, cfg.usernameField) && HasKey(p0, cfg.passwordField);
    assert form.Some? ==>
             forall j :: 0 <= j < |form.value.inputs| && FirstOfItsName(form.value.inputs, j)
                         && NameOf(form.value.inputs[j]).value != cfg.usernameField
                         && NameOf(form.value.inputs[j]).value != cfg.passwordField
                         && !(NameOf(form.value.inputs[j]).value == cfg.csrfField && Truthy(token)) ==>
               Get(p, NameOf(form.value.inputs[j]).value) == Some(form.value.inputs[j].value.GetOr("")) by {
      if form.Some? {
        LoginPayloadInputs(cfg, username, password, token, form.value);
      }
    }
    assert token.Some? ==> HasKey(p0, cfg.csrfField);
    assert cfg.usernameField != cfg.passwordField && cfg.csrfField != cfg.usernameField && cfg.csrfField != cfg.passwordField ==>
             && Get(p, cfg.usernameField) == Some(username)
             && Get(p, cfg.passwordField) == Some(password)
             && (token.Some? ==> Get(p, cfg.csrfField) == token) by {
      GetOfPrefix(p0, p, cfg.usernameField);
      GetOfPrefix(p0, p, cfg.passwordField);
      if token.Some? {
        GetOfPrefix(p0, p, cfg.csrfField);
      }
    }
    PostForm(PostUrl(cfg, form), p, LoginUrl(cfg), cfg.baseUrl)
  }

  /** What the answer to the credentials says, before any probe. */
  datatype Verdict = Landed | Rejected | ProbeNeeded

  predicate SaysLoggedIn(body: string) {
    Contains(LowerStr(body), "logout") || Contains(LowerStr(body), "dashboard")
  }

  predicate SaysRejected(body: string) {
    Contains(LowerStr(body), "invalid") || Contains(LowerStr(body), "incorrect")
  }

  /** The first two tests of `login`, in their fixed order: a success signal (a "logout" or
      "dashboard" word, or having been redirected away from the login URL) wins over an error word. */
  function PostLoginVerdict(loginUrl: string, post: Response): (v: Verdict)
    ensures post.url != loginUrl ==> v == Landed
    ensures SaysLoggedIn(post.text) ==> v == Landed
    ensures v == Rejected <==> post.url == loginUrl && !SaysLoggedIn(post.text) && SaysRejected(post.text)
    ensures v == ProbeNeeded <==> post.url == loginUrl && !SaysLoggedIn(post.text) && !SaysRejected(post.text)
  {
    if SaysLoggedIn(post.text) || post.url != loginUrl then Landed
    else if SaysRejected(post.text) then Rejected
    else ProbeNeeded
  }

  /** A page judged logged-in stays so whatever is added around its body, an error banner with
      "invalid" or "incorrect" included. */
  lemma LandedSurvivesExtraText(loginUrl: string, post: Response, before: string, after: string)
    requires PostLoginVerdict(loginUrl, post) == Landed
    ensures PostLoginVerdict(loginUrl, post.(text := before + post.text + after)) == Landed
  {
    var t := before + post.text + after;
    LowerConcat(before, post.text);
    LowerConcat(before + post.text, after);
    assert LowerStr(t) == LowerStr(before) + LowerStr(post.text) + LowerStr(after);
    if Contains(LowerStr(post.text), "logout") {
      ContainsInContext(LowerStr(post.text), "logout", LowerStr(before), LowerStr(after));
    }
    if Contains(LowerStr(post.text), "dashboard") {
      ContainsInContext(LowerStr(post.text), "dashboard", LowerStr(before), LowerStr(after));
    }
  }

  /** The probe of the points page accepts a status of exactly 200 without the word "login". */
  predicate ProbeAccepts(probe: Response) {
    probe.status == 200 && !Contains(LowerStr(probe.text), "login")
  }

  /** A parsed page kept for later: the landing page after login. */
  datatype Page = Page(url: string, text: string, doc: Document)

  /** The client's state: whether it is logged in, and the landing page if one was recorded. */
  datatype Client = Client(loggedIn: bool, landing: Option<Page>)

  const NewClient := Client(false, None)

  /** The response to the last request of `history`. */
  function Answer(server: Server, history: seq<Request>): Response
    requires server(history).Answered?
  {
    server(history).response
  }

  /** The second half of `login`: the answer to the credentials (the last request of `sent`)
      is checked, judged and, only when neither test decides, followed by a probe of the points
      page. */
  function JudgeAnswer(cfg: Config, server: Server, sent: seq<Request>): (a: Attempt<Client>)
    ensures |sent| <= |a.trace| <= |sent| + 1 && a.trace[..|sent|] == sent
    ensures |a.trace| > |sent| ==> a.trace[|sent|] == Fetch(PointsUrl(cfg))
    ensures a.outcome.Raised? ==> a.outcome.failure.TransportFailure? || a.outcome.failure.HttpError?
    ensures server(sent).TransportError? ==> a == Attempt(Raised(TransportFailure), sent)
    ensures server(sent).Answered? && IsHttpError(Answer(server, sent).status) ==>
              a == Attempt(Raised(HttpError(Answer(server, sent).status)), sent)
    ensures server(sent).Answered? && !IsHttpError(Answer(server, sent).status) ==>
              var v := PostLoginVerdict(LoginUrl(cfg), Answer(server, sent));
              && (v != ProbeNeeded ==> a.trace == sent && a.outcome.Done?)
              && (v == ProbeNeeded ==>
                    && a.trace == sent + [Fetch(PointsUrl(cfg))]
                    && (a.outcome.Raised? <==> server(a.trace).TransportError?))
    ensures a.outcome.Done? ==>
              && server(sent).Answered?
              && var v := PostLoginVerdict(LoginUrl(cfg), Answer(server, sent));
              && (|a.trace| > |sent| <==> v == ProbeNeeded)
              && (a.outcome.value.loggedIn <==>
                    v == Landed || (v == ProbeNeeded && server(a.trace).Answered? && ProbeAccepts(Answer(server, a.trace))))
              && a.outcome.value.landing ==
                   (if v == Landed then Some(Page(Answer(server, sent).url, Answer(server, sent).text, Answer(server, sent).page))
                    else None)
  {
    match server(sent)
    case TransportError => Attempt(Raised(TransportFailure), sent)
    case Answered(r) =>
      if IsHttpError(r.status) then Attempt(Raised(HttpError(r.status)), sent)
      else
        match PostLoginVerdict(LoginUrl(cfg), r)
        case Landed => Attempt(Done(Client(true, Some(Page(r.url, r.text, r.page)))), sent)
        case Rejected => Attempt(Done(NewClient), sent)
        case ProbeNeeded =>
          var probed := sent + [Fetch(PointsUrl(cfg))];
          assert probed[..|sent|] == sent;
          match server(probed)
          case TransportError => Attempt(Raised(TransportFailure), probed)
          case Answered(probe) => Attempt(Done(Client(ProbeAccepts(probe), None)), probed)
  }

  /** Posting the credentials built from the login page `page`, then judging the answer. */
  function Submit(cfg: Config, username: string, password: string, server: Server, fetched: seq<Request>, page: Document): (a: Attempt<Client>)
    ensures |fetched| < |a.trace| <= |fetched| + 2
    ensures a.trace[..|fetched| + 1] == fetched + [SubmitRequest(cfg, page, username, password)]
    ensures a == JudgeAnswer(cfg, server, a.trace[..|fetched| + 1])
  {
    var sent := fetched + [SubmitRequest(cfg, page, username, password)];
    JudgeAnswer(cfg, server, sent)
  }

  /** `login(username, password)` on a fresh client: GET the login page and, unless that fails
      or answers with an HTTP error, submit the credentials built from it. The returned client's
      `loggedIn` is `login`'s boolean result. */
  function Login(cfg: Config, username: string, password: string, server: Server, trace: seq<Request>): (a: Attempt<Client>)
    ensures |trace| < |a.trace| <= |trace| + 3 && a.trace[..|trace| + 1] == trace + [Fetch(LoginUrl(cfg))]
    ensures |a.trace| == |trace| + 1 ==> a.outcome.Raised?
    ensures server(trace + [Fetch(LoginUrl(cfg))]).TransportError? ==>
              a == Attempt(Raised(TransportFailure), trace + [Fetch(LoginUrl(cfg))])
    ensures server(trace + [Fetch(LoginUrl(cfg))]).Answered? && IsHttpError(Answer(server, trace + [Fetch(LoginUrl(cfg))]).status) ==>
              a == Attempt(Raised(HttpError(Answer(server, trace + [Fetch(LoginUrl(cfg))]).status)), trace + [Fetch(LoginUrl(cfg))])
    ensures server(trace + [Fetch(LoginUrl(cfg))]).Answered? && !IsHttpError(Answer(server, trace + [Fetch(LoginUrl(cfg))]).status) ==>
              a == Submit(cfg, username, password, server, trace + [Fetch(LoginUrl(cfg))], Answer(server, trace + [Fetch(LoginUrl(cfg))]).page)
    ensures |a.trace| > |trace| + 1 ==>
              && server(a.trace[..|trace| + 1]).Answered?
              && !IsHttpError(Answer(server, a.trace[..|trace| + 1]).status)
              && a == Submit(cfg, username, password, server, a.trace[..|trace| + 1], Answer(server, a.trace[..|trace| + 1]).page)
  {
    var fetched := trace + [Fetch(LoginUrl(cfg))];
    match server(fetched)
    case TransportError => Attempt(Raised(TransportFailure), fetched)
    case Answered(r) =>
      if IsHttpError(r.status) then Attempt(Raised(HttpError(r.status)), fetched)
      else
        var a := Submit(cfg, username, password, server, fetched, r.page);
        assert a.trace[..|fetched|] == fetched;
        a
  }
}

=== FILE: scan.dfy ===
/** The three regular expressions `fetch_points` applies to raw text, written out as
    explicit scanners with Python `re` semantics (leftmost match, greedy repetition,
    backtracking, `re.I`), over ASCII text. */
module Scan {
  import opened Base
  import opened Text

  /** End of the longest run of characters satisfying `inRun` that starts at `j`
      (what a greedy `x*` consumes). */
  function RunEnd(s: string, j: nat, inRun: char -> bool): (k: nat)
    requires j <= |s|
    decreases |s| - j
    ensures j <= k <= |s|
    ensures forall i :: j <= i < k ==> inRun(s[i])
    ensures k == |s| || !inRun(s[k])
  {
    if j < |s| && inRun(s[j]) then RunEnd(s, j + 1, inRun) else j
  }

  /** `[0-9.]` */
  predicate IsNumberChar(c: char) {
    IsDigit(c) || c == '.'
  }

  /** `[^"\n]` */
  predicate IsStatusChar(c: char) {
    c != '"' && c != '\n'
  }

  /** `key` occurs at `i`, ignoring ASCII case (`re.I`). */
  predicate KeyAt(s: string, key: string, i: nat) {
    i + |key| <= |s| && LowerStr(s[i..i + |key|]) == LowerStr(key)
  }

  /** `\b` holds at `i`: exactly one of the characters around `i` is a word character. */
  predicate Boundary(s: string, i: nat)
    requires i <= |s|
  {
    (i > 0 && IsWordChar(s[i - 1])) != (i < |s| && IsWordChar(s[i]))
  }

  /** Where `\s*[:=]\s*` starting at `p` ends, if it matches there. */
  function AfterSeparator(s: string, p: nat, seps: set<char>): (r: Option<nat>)
    requires p <= |s|
    ensures r.Some? ==> p < r.value <= |s|
  {
    var q := RunEnd(s, p, IsSpace);
    if q < |s| && s[q] in seps then Some(RunEnd(s, q + 1, IsSpace)) else None
  }

  /** Group 1 of `\b<key>\b\s*[:=]\s*"?([0-9.]+)"?` when the match starts at `i`. The key is
      taken literally, as it is for the letters-only keys the portal client uses. */
  function NumberAt(s: string, key: string, i: nat): (r: Option<string>)
    ensures r.Some? ==> |r.value| > 0 && forall c :: c in r.value ==> IsNumberChar(c)
  {
    if !(KeyAt(s, key, i) && Boundary(s, i) && Boundary(s, i + |key|)) then None
    else
      match AfterSeparator(s, i + |key|, {':', '='})
      case None => None
      case Some(q) =>
        var start := if q < |s| && s[q] == '"' then q + 1 else q;
        var end := RunEnd(s, start, IsNumberChar);
        if end == start then None else Some(s[start..end])
  }

  /** `find_num(key)`: group 1 of the leftmost match of the pattern above, if any. */
  function FindNum(s: string, key: string): (r: Option<string>)
    ensures r.Some? ==> exists i :: 0 <= i <= |s| && NumberAt(s, key, i) == r
                                    && forall j :: 0 <= j < i ==> NumberAt(s, key, j).None?
    ensures r.None? <==> forall i :: 0 <= i <= |s| ==> NumberAt(s, key, i).None?
    ensures r.Some? ==> |r.value| > 0 && forall c :: c in r.value ==> IsNumberChar(c)
  {
    var at: nat -> Option<string> := (i: nat) => NumberAt(s, key, i);
    assert forall j: nat :: at(j) == NumberAt(s, key, j);
    match Leftmost(|s|, at, 0)
    case Some(i) => NumberAt(s, key, i)
    case None => None
  }

  /** Largest `j` in `lo..hi-1` with `s[j] != '\n'`: the first place backtracking a greedy
      `\s*` gives `[^"\n]` a character to start on. */
  function LastNonNewline(s: string, lo: nat, hi: nat): (r: Option<nat>)
    requires lo <= hi <= |s|
    decreases hi - lo
    ensures r.Some? ==> lo <= r.value < hi && s[r.value] != '\n'
    ensures r.Some? ==> forall j :: r.value < j < hi ==> s[j] == '\n'
    ensures r.None? ==> forall j :: lo <= j < hi ==> s[j] == '\n'
  {
    if lo == hi then None
    else if s[hi - 1] != '\n' then Some(hi - 1)
    else LastNonNewline(s, lo, hi - 1)
  }

  const StatusKey := "semester_status"

  /** Group 1 of `semester_status\s*[:=]\s*"?([^"\n]+)"?` when the match starts at `i`.
      With nothing usable after an opening quote, backtracking hands a whitespace
      character of the separator to the group. */
  function StatusAt(s: string, i: nat): (r: Option<string>)
    ensures r.Some? ==> |r.value| > 0 && forall c :: c in r.value ==> IsStatusChar(c)
  {
    if !KeyAt(s, StatusKey, i) then None
    else
      var p := RunEnd(s, i + |StatusKey|, IsSpace);
      if !(p < |s| && s[p] in {':', '='}) then None
      else
        var q := RunEnd(s, p + 1, IsSpace);
        if q + 1 < |s| && s[q] == '"' && IsStatusChar(s[q + 1]) then
          Some(s[q + 1..RunEnd(s, q + 1, IsStatusChar)])
        else if q < |s| && s[q] != '"' then
          Some(s[q..RunEnd(s, q, IsStatusChar)])
        else
          match LastNonNewline(s, p + 1, q)
          case Some(j) => Some(s[j..RunEnd(s, j, IsStatusChar)])
          case None => None
  }

  /** The leftmost `semester_status` match's group 1, not yet stripped. */
  function FindStatus(s: string): (r: Option<string>)
    ensures r.Some? ==> exists i :: 0 <= i <= |s| && StatusAt(s, i) == r
                                    && forall j :: 0 <= j < i ==> StatusAt(s, j).None?
    ensures r.None? <==> forall i :: 0 <= i <= |s| ==> StatusAt(s, i).None?
  {
    var at: nat -> Option<string> := (i: nat) => StatusAt(s, i);
    assert forall j: nat :: at(j) == StatusAt(s, j);
    match Leftmost(|s|, at, 0)
    case Some(i) => StatusAt(s, i)
    case None => None
  }

  /** Group 2 of `(Total Points|Points)\s*:\s*([0-9]+)` when the match starts at `i`. The two
      alternatives cannot both start at one position, so trying them in order is exact. */
  function TotalPointsAt(s: string, i: nat): (r: Option<string>)
    ensures r.Some? ==> |r.value| > 0 && forall c :: c in r.value ==> IsDigit(c)
  {
    var labelEnd :=
      if KeyAt(s, "total points", i) then Some(i + 12)
      else if KeyAt(s, "points", i) then Some(i + 6)
      else None;
    match labelEnd
    case None => None
    case Some(p) =>
      match AfterSeparator(s, p, {':'})
      case None => None
      case Some(q) =>
        var end := RunEnd(s, q, IsDigit);
        if end == q then None else Some(s[q..end])
  }

  /** The number after the leftmost "Points:" / "Total Points:" label, if any. */
  function FindTotalPoints(s: string): (r: Option<string>)
    ensures r.Some? ==> exists i :: 0 <= i <= |s| && TotalPointsAt(s, i) == r
                                    && forall j :: 0 <= j < i ==> TotalPointsAt(s, j).None?
    ensures r.None? <==> forall i :: 0 <= i <= |s| ==> TotalPointsAt(s, i).None?
  {
    var at: nat -> Option<string> := (i: nat) => TotalPointsAt(s, i);
    assert forall j: nat :: at(j) == TotalPointsAt(s, j);
    match Leftmost(|s|, at, 0)
    case Some(i) => TotalPointsAt(s, i)
    case None => None
  }

  /** A run is determined by where it starts: any end point with the run's two properties is
      the one `RunEnd` finds. */
  lemma RunEndIs(s: string, j: nat, inRun: char -> bool, k: nat)
    requires j <= k <= |s|
    requires forall i :: j <= i < k ==> inRun(s[i])
    requires k == |s| || !inRun(s[k])
    ensures RunEnd(s, j, inRun) == k
  {
  }

  /** Text with no upper-case letter is its own lower-case form. */
  lemma LowerOfLower(t: string)
    requires forall i :: 0 <= i < |t| ==> !('A' <= t[i] <= 'Z')
    ensures LowerStr(t) == t
  {
  }

  /** `\bsgp\b` never matches where "sgpa" is written (in any case): the word boundary
      after "sgp" fails because "a" is a word character. */
  lemma SgpNotInsideSgpa(s: string, i: nat)
    requires KeyAt(s, "sgpa", i)
    ensures NumberAt(s, "sgp", i).None?
  {
    assert LowerStr(s[i..i + 4])[2] == 'p' && LowerStr(s[i..i + 4])[3] == 'a';
    assert Lower(s[i + 2]) == 'p' && Lower(s[i + 3]) == 'a';
    assert IsWordChar(s[i + 2]) && IsWordChar(s[i + 3]);
    assert !Boundary(s, i + 3);
  }

  /** A key written in any letter case at the start of the text, followed by a character
      that is not a word character, is matched there with `\b` on both sides. */
  lemma LeadingKey(s: string, key: string, k: string, tail: string)
    requires |key| > 0 && forall i :: 0 <= i < |key| ==> 'a' <= key[i] <= 'z'
    requires LowerStr(k) == key
    requires |tail| > 0 && !IsWordChar(tail[0])
    requires s == k + tail
    ensures |k| == |key| && KeyAt(s, key, 0) && Boundary(s, 0) && Boundary(s, |key|)
  {
    LowerOfLower(key);
    var n := |k|;
    assert s[..n] == k;
    assert Lower(s[0]) == key[0] && Lower(s[n - 1]) == key[n - 1];
    assert s[n] == tail[0];
  }

  /** `\s*[:=]\s*` at `n` ends at `n + 1` when the separator is not followed by whitespace. */
  lemma SeparatorAt(s: string, n: nat)
    requires n < |s| && s[n] in {':', '='}
    requires n + 1 == |s| || !IsSpace(s[n + 1])
    ensures AfterSeparator(s, n, {':', '='}) == Some(n + 1)
  {
    RunEndIs(s, n, IsSpace, n);
    RunEndIs(s, n + 1, IsSpace, n + 1);
  }

  /** `[0-9.]+` at `start` consumes exactly the number `v` written there. */
  lemma NumberRunAt(s: string, start: nat, v: string)
    requires start + |v| <= |s| && s[start..start + |v|] == v
    requires forall i :: 0 <= i < |v| ==> IsNumberChar(v[i])
    requires start + |v| == |s| || !IsNumberChar(s[start + |v|])
    ensures RunEnd(s, start, IsNumberChar) == start + |v|
  {
    assert forall i :: start <= i < start + |v| ==> s[i] == v[i - start];
    RunEndIs(s, start, IsNumberChar, start + |v|);
  }

  /** The pattern for `key` matches at the start of "KEY: value" and its variants, and its
      group is the value. */
  lemma NumberAtLeadingPair(s: string, key: string, k: string, sep: char,
                            quote: string, v: string, rest: string)
    requires |key| > 0 && forall i :: 0 <= i < |key| ==> 'a' <= key[i] <= 'z'
    requires LowerStr(k) == key
    requires sep == ':' || sep == '='
    requires quote == "" || quote == "\""
    requires |v| > 0 && forall i :: 0 <= i < |v| ==> IsNumberChar(v[i])
    requires rest == "" || !IsNumberChar(rest[0])
    requires s == k + [sep] + quote + v + rest
    ensures NumberAt(s, key, 0) == Some(v)
  {
    var tail := [sep] + quote + v + rest;
    assert s == k + tail;
    LeadingKey(s, key, k, tail);
    var n := |k|;
    var start := n + 1 + |quote|;
    assert s[n] == sep;
    assert s[start..start + |v|] == v;
    assert s[start] == v[0];
    assert s[n + 1] == (if quote == "" then v[0] else '"');
    SeparatorAt(s, n);
    assert start + |v| == |s| || s[start + |v|] == rest[0];
    NumberRunAt(s, start, v);
  }

  /** "KEY: value", "KEY=value", "KEY:\"value\"" and the like, at the start of the text, yield
      the value for a key written in any letter case. */
  lemma FindNumReadsLeadingPair(s: string, key: string, k: string, sep: char,
                                quote: string, v: string, rest: string)
    requires |key| > 0 && forall i :: 0 <= i < |key| ==> 'a' <= key[i] <= 'z'
    requires LowerStr(k) == key
    requires sep == ':' || sep == '='
    requires quote == "" || quote == "\""
    requires |v| > 0 && forall i :: 0 <= i < |v| ==> IsNumberChar(v[i])
    requires rest == "" || !IsNumberChar(rest[0])
    requires s == k + [sep] + quote + v + rest
    ensures FindNum(s, key) == Some(v)
  {
    NumberAtLeadingPair(s, key, k, sep, quote, v, rest);
  }

  /** A number written after "sgpa" is never reported for the key "sgp". */
  lemma {:induction false} SgpIgnoresSgpaPair(s: string, k: string, v: string)
    requires LowerStr(k) == "sgpa"
    requires forall i :: 0 <= i < |v| ==> IsNumberChar(v[i])
    requires s == k + ":" + v
    ensures FindNum(s, "sgp").None?
  {
    assert s[..4] == k;
    SgpNotInsideSgpa(s, 0);
    forall i: nat | 0 < i <= |s| ensures !KeyAt(s, "sgp", i) {
      if i + 3 <= |s| {
        if i < 4 {
          assert Lower(s[i]) == LowerStr(k)[i] == "sgpa"[i];
        } else if i == 4 {
          assert s[i] == ':';
        } else {
          assert s[i] == v[i - 5];
        }
        assert LowerStr(s[i..i + 3])[0] == Lower(s[i]) != 's';
      }
    }
    var at: nat -> Option<string> := (i: nat) => NumberAt(s, "sgp", i);
    assert forall i: nat :: i <= |s| ==> at(i).None?;
  }

  /** `semester_status: "Promoted"` yields the text between the quotes. */
  lemma {:induction false} FindStatusReadsQuoted(s: string, k: string, v: string, rest: string)
    requires LowerStr(k) == StatusKey
    requires |v| > 0 && forall i :: 0 <= i < |v| ==> IsStatusChar(v[i])
    requires s == k + ": \"" + v + "\"" + rest
    ensures FindStatus(s) == Some(v)
  {
    var n := |k|;
    LowerOfLower(StatusKey);
    assert s[..n] == k;
    assert KeyAt(s, StatusKey, 0);
    RunEndIs(s, n, IsSpace, n);
    RunEndIs(s, n + 1, IsSpace, n + 2);
    assert s[n + 3..n + 3 + |v|] == v;
    RunEndIs(s, n + 3, IsStatusChar, n + 3 + |v|);
    assert StatusAt(s, 0) == Some(v);
    var at: nat -> Option<string> := (i: nat) => StatusAt(s, i);
    assert at(0).Some?;
    assert Leftmost(|s|, at, 0) == Some(0);
  }

  /** `semester_status: ""` does not leave the status unset: backtracking gives the group the
      space before the quotes, so the stripped status is the empty string. */
  lemma {:induction false} FindStatusBlankForEmptyQuotes(s: string, k: string, rest: string)
    requires LowerStr(k) == StatusKey
    requires s == k + ": \"\"" + rest
    ensures FindStatus(s) == Some(" ")
    ensures Strip(" ") == ""
  {
    var n := |k|;
    LowerOfLower(StatusKey);
    assert s[..n] == k;
    assert KeyAt(s, StatusKey, 0);
    RunEndIs(s, n, IsSpace, n);
    RunEndIs(s, n + 1, IsSpace, n + 2);
    assert s[n] == ':' && s[n + 1] == ' ' && s[n + 2] == '"' && s[n + 3] == '"';
    assert !IsStatusChar(s[n + 3]);
    assert |StatusKey| == n;
    assert RunEnd(s, n, IsSpace) == n;
    assert RunEnd(s, n + 1, IsSpace) == n + 2;
    assert LastNonNewline(s, n + 1, n + 2) == Some(n + 1);
    RunEndIs(s, n + 1, IsStatusChar, n + 2);
    assert s[n + 1..n + 2] == " ";
    assert StatusAt(s, 0) == Some(" ");
    var at: nat -> Option<string> := (i: nat) => StatusAt(s, i);
    assert at(0).Some?;
    assert Leftmost(|s|, at, 0) == Some(0);
  }

  /** The number after a label that ends at `n`, followed by ": " and digits. */
  lemma TotalPointsAfterLabel(s: string, n: nat, d: string)
    requires (n == 12 && KeyAt(s, "total points", 0)) || (n == 6 && !KeyAt(s, "total points", 0) && KeyAt(s, "points", 0))
    requires n + 2 + |d| <= |s| && s[n..n + 2] == ": " && s[n + 2..n + 2 + |d|] == d
    requires |d| > 0 && forall i :: 0 <= i < |d| ==> IsDigit(d[i])
    requires n + 2 + |d| == |s| || !IsDigit(s[n + 2 + |d|])
    ensures TotalPointsAt(s, 0) == Some(d)
  {
    assert s[n] == s[n..n + 2][0] == ':';
    assert s[n + 1] == s[n..n + 2][1] == ' ';
    assert s[n + 2] == s[n + 2..n + 2 + |d|][0] == d[0];
    RunEndIs(s, n, IsSpace, n);
    RunEndIs(s, n + 1, IsSpace, n + 2);
    assert s[n] in {':'};
    assert AfterSeparator(s, n, {':'}) == Some(n + 2);
    assert forall i :: n + 2 <= i < n + 2 + |d| ==> s[i] == d[i - (n + 2)];
    RunEndIs(s, n + 2, IsDigit, n + 2 + |d|);
  }

  /** "Total Points: 42" (in any letter case) at the start of the text yields "42". */
  lemma {:induction false} FindTotalPointsReadsLabel(s: string, k: string, d: string, rest: string)
    requires LowerStr(k) == "total points" || LowerStr(k) == "points"
    requires |d| > 0 && forall i :: 0 <= i < |d| ==> IsDigit(d[i])
    requires rest == "" || !IsDigit(rest[0])
    requires s == k + ": " + d + rest
    ensures FindTotalPoints(s) == Some(d)
  {
    var n := |k|;
    LowerOfLower("total points");
    LowerOfLower("points");
    var tail := ": " + d + rest;
    assert s == k + tail;
    assert s[..n] == k;
    assert s[n..] == tail;
    assert s[n..n + 2] == tail[..2] == ": ";
    assert s[n + 2..n + 2 + |d|] == tail[2..2 + |d|] == d;
    assert n + 2 + |d| < |s| ==> s[n + 2 + |d|] == rest[0];
    if LowerStr(k) == "points" {
      assert Lower(s[0]) == LowerStr(k)[0] == 'p';
      if 12 <= |s| {
        assert LowerStr(s[..12])[0] == Lower(s[0]) != 't';
      }
      assert KeyAt(s, "points", 0);
    } else {
      assert KeyAt(s, "total points", 0);
    }
    TotalPointsAfterLabel(s, n, d);
    var at: nat -> Option<string> := (i: nat) => TotalPointsAt(s, i);
    assert at(0).Some?;
    assert Leftmost(|s|, at, 0) == Some(0);
  }
}

=== FILE: text.dfy ===
/** String helpers with Python's meaning, restricted to ASCII (no Unicode case folding). */
module Text {

  /** Characters below 128 for which Python's `str.isspace()` holds (and `\s` matches):
      tab, line feed, vertical tab, form feed, carriage return, the separators 0x1C-0x1F, space. */
  predicate IsSpace(c: char) {
    c == ' ' || ('\t' <= c <= '\r') || ('\U{1C}' <= c <= '\U{1F}')
  }

  /** ASCII word characters, the ones `\b` separates from non-word characters. */
  predicate IsWordChar(c: char) {
    ('a' <= c <= 'z') || ('A' <= c <= 'Z') || ('0' <= c <= '9') || c == '_'
  }

  predicate IsDigit(c: char) {
    '0' <= c <= '9'
  }

  /** ASCII lower-casing of one character. */
  function Lower(c: char): char {
    if 'A' <= c <= 'Z' then (c as int + 32) as char else c
  }

  /** Python's `s.lower()` on ASCII text. */
  function LowerStr(s: string): (r: string)
    ensures |r| == |s|
    ensures forall i :: 0 <= i < |s| ==> r[i] == Lower(s[i])
  {
    seq(|s|, i requires 0 <= i < |s| => Lower(s[i]))
  }

  predicate StartsWith(s: string, prefix: string) {
    |prefix| <= |s| && s[..|prefix|] == prefix
  }

  predicate EndsWith(s: string, suffix: string) {
    |suffix| <= |s| && s[|s| - |suffix|..] == suffix
  }

  /** `needle` occurs in `s` starting at index `i`. */
  predicate OccursAt(s: string, needle: string, i: int) {
    0 <= i && i + |needle| <= |s| && s[i..i + |needle|] == needle
  }

  /** Python's `needle in s` for strings. */
  predicate Contains(s: string, needle: string) {
    exists i :: 0 <= i <= |s| && OccursAt(s, needle, i)
  }

  /** A substring of `s` is a substring of any text that has `s` inside it. */
  lemma ContainsInContext(s: string, needle: string, before: string, after: string)
    requires Contains(s, needle)
    ensures Contains(before + s + after, needle)
  {
    var i :| 0 <= i <= |s| && OccursAt(s, needle, i);
    var t := before + s + after;
    var j := |before| + i;
    assert t[j..j + |needle|] == s[i..i + |needle|];
    assert OccursAt(t, needle, j);
  }

  /** Lower-casing commutes with concatenation. */
  lemma LowerConcat(a: string, b: string)
    ensures LowerStr(a + b) == LowerStr(a) + LowerStr(b)
  {
  }

  /** Python's `s.lstrip()`. */
  function StripStart(s: string): (r: string)
    ensures |r| <= |s| && r == s[|s| - |r|..]
    ensures forall i :: 0 <= i < |s| - |r| ==> IsSpace(s[i])
    ensures |r| > 0 ==> !IsSpace(r[0])
  {
    if |s| > 0 && IsSpace(s[0]) then StripStart(s[1..]) else s
  }

  /** Python's `s.rstrip()`. */
  function StripEnd(s: string): (r: string)
    ensures |r| <= |s| && r == s[..|r|]
    ensures forall i :: |r| <= i < |s| ==> IsSpace(s[i])
    ensures |r| > 0 ==> !IsSpace(r[|r| - 1])
  {
    if |s| > 0 && IsSpace(s[|s| - 1]) then StripEnd(s[..|s| - 1]) else s
  }

  /** Python's `s.strip()`: the text between the leading and the trailing whitespace. */
  function Strip(s: string): (r: string)
    ensures Contains(s, r)
    ensures |r| > 0 ==> !IsSpace(r[0]) && !IsSpace(r[|r| - 1])
    ensures r == "" <==> forall i :: 0 <= i < |s| ==> IsSpace(s[i])
  {
    var t := StripStart(s);
    var r := StripEnd(t);
    assert OccursAt(s, r, |s| - |t|);
    r
  }

  /** Whitespace put in front of a string does not survive `lstrip()`. */
  lemma {:induction false} StripStartPadded(a: string, x: string)
    requires forall i :: 0 <= i < |a| ==> IsSpace(a[i])
    ensures StripStart(a + x) == StripStart(x)
  {
    if |a| == 0 {
      assert a + x == x;
    } else {
      assert (a + x)[1..] == a[1..] + x;
      StripStartPadded(a[1..], x);
    }
  }

  /** Whitespace put after a string does not survive `rstrip()`. */
  lemma {:induction false} StripEndPadded(x: string, b: string)
    requires forall i :: 0 <= i < |b| ==> IsSpace(b[i])
    ensures StripEnd(x + b) == StripEnd(x)
  {
    if |b| == 0 {
      assert x + b == x;
    } else {
      assert (x + b)[..|x + b| - 1] == x + b[..|b| - 1];
      StripEndPadded(x, b[..|b| - 1]);
    }
  }

  /** `lstrip()` of a concatenation: the second part is reached only when the first is blank. */
  lemma {:induction false} StripStartAppend(x: string, y: string)
    ensures StripStart(x + y) == if StripStart(x) == "" then StripStart(y) else StripStart(x) + y
  {
    if |x| == 0 {
      assert x + y == y;
    } else if IsSpace(x[0]) {
      assert (x + y)[1..] == x[1..] + y;
      StripStartAppend(x[1..], y);
    }
  }

  /** `strip()` ignores whitespace added around a string. */
  lemma StripPadded(a: string, v: string, b: string)
    requires forall i :: 0 <= i < |a| ==> IsSpace(a[i])
    requires forall i :: 0 <= i < |b| ==> IsSpace(b[i])
    ensures Strip(a + v + b) == Strip(v)
  {
    assert a + v + b == a + (v + b);
    StripStartPadded(a, v + b);
    StripStartAppend(v, b);
    if StripStart(v) == "" {
      assert b + "" == b;
      StripStartPadded(b, "");
    } else {
      StripEndPadded(StripStart(v), b);
    }
  }

  /** Lower-casing never turns a character into whitespace or back. */
  lemma LowerKeepsSpace(c: char)
    ensures IsSpace(Lower(c)) == IsSpace(c)
  {
  }

  lemma {:induction false} LowerStripStart(s: string)
    ensures LowerStr(StripStart(s)) == StripStart(LowerStr(s))
  {
    if |s| > 0 {
      assert LowerStr(s)[1..] == LowerStr(s[1..]);
      LowerKeepsSpace(s[0]);
      if IsSpace(s[0]) {
        LowerStripStart(s[1..]);
      }
    }
  }

  lemma {:induction false} LowerStripEnd(s: string)
    ensures LowerStr(StripEnd(s)) == StripEnd(LowerStr(s))
  {
    if |s| > 0 {
      assert LowerStr(s)[..|s| - 1] == LowerStr(s[..|s| - 1]);
      LowerKeepsSpace(s[|s| - 1]);
      if IsSpace(s[|s| - 1]) {
        LowerStripEnd(s[..|s| - 1]);
      }
    }
  }

  /** Stripping and lower-casing commute, so `s.strip().lower()` depends on `s.lower()` only. */
  lemma LowerStrip(s: string)
    ensures LowerStr(Strip(s)) == Strip(LowerStr(s))
  {
    LowerStripStart(s);
    LowerStripEnd(StripStart(s));
  }

  /** A string built as `a + b + c` ends with `b + c`. */
  lemma EndsWithConcat(a: string, b: string, c: string)
    ensures EndsWith(a + b + c, b + c)
  {
    var s := a + b + c;
    assert s[|s| - |b + c|..] == b + c;
  }

  /** Python's `s.rstrip("/")`. */
  function TrimTrailingSlashes(s: string): (r: string)
    ensures |r| <= |s| && r == s[..|r|]
    ensures forall i :: |r| <= i < |s| ==> s[i] == '/'
    ensures |r| > 0 ==> r[|r| - 1] != '/'
  {
    if |s| > 0 && s[|s| - 1] == '/' then TrimTrailingSlashes(s[..|s| - 1]) else s
  }

  /** Python's `sep.join(parts)`. */
  function Join(parts: seq<string>, sep: string): string {
    if |parts| == 0 then ""
    else if |parts| == 1 then parts[0]
    else parts[0] + sep + Join(parts[1..], sep)
  }

  /** Joining one more part adds exactly one separator and the part at the end. */
  lemma {:induction false} JoinSnoc(parts: seq<string>, last: string, sep: string)
    requires |parts| > 0
    ensures Join(parts + [last], sep) == Join(parts, sep) + sep + last
  {
    if |parts| == 1 {
      assert parts + [last] == [parts[0], last];
      assert ([parts[0], last])[1..] == [last];
    } else {
      assert (parts + [last])[1..] == parts[1..] + [last];
      JoinSnoc(parts[1..], last, sep);
    }
  }

  function DigitChar(d: nat): (c: char)
    requires d < 10
    ensures IsDigit(c)
  {
    (48 + d) as char
  }

  /** Python's `str(n)` for a natural number. */
  function NatToDecimal(n: nat): (r: string)
    ensures |r| > 0
    ensures forall i :: 0 <= i < |r| ==> IsDigit(r[i])
    ensures r[0] == '0' ==> r == "0"
  {
    if n < 10 then [DigitChar(n)] else NatToDecimal(n / 10) + [DigitChar(n % 10)]
  }

  /** The number a string of decimal digits denotes. */
  function DecimalValue(s: string): nat
    requires forall i :: 0 <= i < |s| ==> IsDigit(s[i])
  {
    if |s| == 0 then 0
    else
      assert IsDigit(s[|s| - 1]);
      DecimalValue(s[..|s| - 1]) * 10 + (s[|s| - 1] as int - 48)
  }

  /** `str(n)` is a faithful decimal rendering: reading it back gives `n`. */
  lemma {:induction false} DecimalRoundTrip(n: nat)
    ensures DecimalValue(NatToDecimal(n)) == n
  {
    if n >= 10 {
      var r := NatToDecimal(n);
      assert r[..|r| - 1] == NatToDecimal(n / 10);
      DecimalRoundTrip(n / 10);
    }
  }

  /** Different numbers get different decimal renderings (so "semester_3" never collides with
      "semester_4"). */
  lemma DecimalDistinct(m: nat, n: nat)
    ensures m != n ==> NatToDecimal(m) != NatToDecimal(n)
  {
    DecimalRoundTrip(m);
    DecimalRoundTrip(n);
  }
}

=== FILE: web.dfy ===
/** What the portal client sees of the web, with the HTML parser, the JSON decoder and the
    HTTP library abstracted away: a parsed page is a record of the elements the client looks
    up, a decoded AJAX body is classified by shape, and the network is a function from the
    request history to the reply to its last request. */
module Web {
  import opened Base
  import opened Dict

  /** An `<input>`: its `name` and `value` attributes, absent or present. */
  datatype Input = Input(name: Option<string>, value: Option<string>)

  /** A `<form>`: its `action` and `method` attributes (`httpMethod`) and every input inside it, in order. */
  datatype Form = Form(action: Option<string>, httpMethod: Option<string>, inputs: seq<Input>)

  /** A `<meta>` tag: its `name` and `content` attributes. */
  datatype Meta = Meta(name: Option<string>, content: Option<string>)

  /** An `<a>` link: its `href` attribute and its text (pieces joined by spaces, stripped). */
  datatype Anchor = Anchor(href: Option<string>, text: string)

  /** An `<option>` of the semester selector: its stripped text and its `value` attribute. */
  datatype SelectOption = SelectOption(text: string, value: Option<string>)

  /** A `<tr>` of the "points" table: stripped text of its first `<th>` and first `<td>`, if any. */
  datatype Row = Row(header: Option<string>, cell: Option<string>)

  /** The stripped span text each profile lookup reaches, or None when the heading, its
      container, the right-aligned panel or the span is missing (or the walk failed). */
  datatype Profile = Profile(
    fullName: Option<string>,   // the "Full name" heading's panel
    username: Option<string>,   // the "Username" heading's panel
    passSpan: Option<string>,   // the `<span id="pass">` shortcut
    password: Option<string>)   // the "Password" heading's panel

  /** A parsed HTML page, reduced to what the client looks up in it. */
  datatype Document = Document(
    forms: seq<Form>,                          // every `<form>`, in document order
    inputs: seq<Input>,                        // every `<input>` of the page, in document order
    metas: seq<Meta>,                          // every `<meta>`, in document order
    anchors: seq<Anchor>,                      // every `<a>`, in document order
    ids: map<string, string>,                  // stripped text of the first element with each id
    semesterSelect: Option<seq<SelectOption>>, // options of the first `<select id="form_semester">`
    pointsTable: Option<seq<Row>>,             // rows of the first table of class "points"
    profile: Profile,
    visibleText: string)                       // all text pieces joined by spaces, stripped

  /** A JSON value as Python would print and test it: `str(value)` and its truthiness. */
  datatype Scalar = Scalar(str: string, truthy: bool)

  /** The dict in the second slot of the AJAX answer; None is a missing key or JSON null. */
  datatype Summary = Summary(
    semesterName: Option<Scalar>,
    scr: Option<Scalar>,
    sgp: Option<Scalar>,
    sgpa: Option<Scalar>,
    cgpa: Option<Scalar>,
    semesterStatus: Option<Scalar>)

  /** The decoded body: a list of at least two items whose second item is a dict, or
      anything else (including a body that is not JSON at all). */
  datatype Json = SummaryPair(info: Summary) | OtherJson

  /** A received HTTP response after redirects: final status and URL, body, and the body
      as the parser and the decoder see it. */
  datatype Response = Response(status: int, url: string, text: string, page: Document, json: Json)

  /** What a request yields: a response, or an exception from the transport (connection
      refused, timeout, TLS failure). */
  datatype Reply = Answered(response: Response) | TransportError

  /** The requests the client sends. */
  datatype Request =
    | Fetch(url: string)
    | PostForm(url: string, payload: Entries, referer: string, origin: string)
    | Xhr(url: string, semesterVal: string, semesterName: string, csrfToken: Option<string>, referer: string)

  /** The portal: the reply to the last request of a request history. Because the whole
      history is an argument, cookies and any other server-side state are covered. */
  type Server = seq<Request> -> Reply

  /** `raise_for_status()` raises exactly for 4xx and 5xx statuses; `response.ok` is its negation. */
  predicate IsHttpError(status: int) {
    400 <= status < 600
  }

  /** The exceptions that leave the portal client. */
  datatype Failure =
    | TransportFailure        // the transport raised
    | HttpError(status: int)  // `raise_for_status()` raised
    | NotLoggedIn             // `fetch_points` before a successful login
    | SelectorDrift           // no extraction strategy found anything

  datatype Outcome<+T> = Done(value: T) | Raised(failure: Failure)

  /** An outcome together with every request sent so far, oldest first. */
  datatype Attempt<+T> = Attempt(outcome: Outcome<T>, trace: seq<Request>)
}
